=== FILE: README.md ===
# Ad Hoc Web UI — configuration, admin creation and browser token helpers in Dafny

This project models the self-contained logic of Ad Hoc Web UI, a small
server-rendered web application with username/password login. The modelled
parts are:

- **The settings classes.** There are two: the current one in `web/settings.py` and the older one in `app/config.py`.
  - Each field takes the supplied value or its documented default.
  - The log level is stored upper-cased.
  - The CSRF secret falls back to the JWT secret.
  - Both validators run on defaults as well, as pydantic-settings does.
- **The `.env.example` generator** (`scripts/generate_env_example.py`).
  - It writes a three-line header.
  - Each settings field then gives three lines: its description, a commented-out `NAME=default` assignment and an empty line.
  - A `Path` default has every occurrence of the project root rewritten to `.`.
  - The lines are joined with newlines.
- **The admin-creation script** (`scripts/create_admin.py`).
  - `main` decides from the `--username`/`--password` arguments and the prompt answers whether to exit, with which status, or to go on.
  - `create_admin_user` queries for the username, then hashes, adds, commits and refreshes.
  - It rolls back on any exception and closes the session on every path.
  - The users table is a sequence of rows. The SQLAlchemy session is a class whose commit inserts all pending objects or none.
- **The browser helpers** (`web/static/js/auth.js`).
  - `localStorage` is a map field of a `Page` class.
  - The CSRF token is read from the cookie string with the source's regular expression: leftmost match, unanchored.
  - The headers are composed for authenticated requests.
  - Logout, token verification, the page-load check and `authenticatedFetch` each append what they do (token removed, request sent, navigation to `/login`) to an event log. The reply to each `fetch` is an input.

Python's `str.upper`, `str.lower`, `str.strip`, `str.replace`, `"\n".join` and
`str(int)` are modelled in the `Strings` module as the source uses them.

Files:

| file | module | models |
|---|---|---|
| `wrappers.dfy` | `Wrappers` | `Option`, `Result` |
| `strings.dfy` | `Strings` | the Python string operations used |
| `validators.dfy` | `Validators` | `validate_log_level`, `default_csrf_key` (identical in both settings files) |
| `web_settings.dfy` | `WebSettings` | `web/settings.py` |
| `app_config.dfy` | `AppConfig` | `app/config.py` |
| `env_example.dfy` | `EnvExample` | `scripts/generate_env_example.py` |
| `create_admin.dfy` | `CreateAdmin` | `scripts/create_admin.py` |
| `auth_client.dfy` | `AuthClient` | `web/static/js/auth.js` |

## Model

| member | source | states |
|---|---|---|
| Strings.Upper | web/settings.py:66-68 | the result is upper-case, equal to the input ignoring case, and keeps every character that is not a lower-case letter |
| Strings.UpperUnique | web/settings.py:66-68 | those three facts determine the upper-cased text: any text satisfying them equals `Upper(s)` |
| Strings.UpperOfUpperCase | web/settings.py:66-68 | an upper-case text is its own upper-casing |
| Strings.UpperIdempotent | web/settings.py:66-68 | upper-casing twice equals upper-casing once |
| Strings.Lower | scripts/create_admin.py:104 | the result is lower-case, equal to the input ignoring case, and keeps every character that is not an upper-case letter |
| Strings.TrimStart | scripts/create_admin.py:80 | the result is a suffix of the input, everything removed is whitespace, and it does not start with whitespace |
| Strings.TrimEnd | scripts/create_admin.py:80 | the result is a prefix of the input, everything removed is whitespace, and it does not end with whitespace |
| Strings.Strip | scripts/create_admin.py:80 | the result is a slice of the input with only whitespace on both sides, and it neither starts nor ends with whitespace |
| Strings.ReplaceAll | scripts/generate_env_example.py:24 | `str.replace`: every character of the result comes from the text or the replacement; replacing a pattern by itself changes nothing; an empty pattern adds `(n+1)·|rep|` characters |
| Strings.ReplaceAllAbsent | scripts/generate_env_example.py:24 | replacing a non-empty pattern that does not occur leaves the text unchanged |
| Strings.ReplaceAllLeading | scripts/generate_env_example.py:24 | a leading occurrence of the pattern is replaced, and the scan continues after it |
| Strings.ReplaceAllFirst | scripts/generate_env_example.py:24 | leftmost first: in `a + pat + b` with no occurrence starting inside `a`, the result is `a + rep` followed by the replacement of `b`; together with `ReplaceAllAbsent` this determines the result for every non-empty pattern |
| Strings.JoinLines | scripts/generate_env_example.py:34 | `"\n".join`: the text starts with the first line, a newline follows it when more lines come, and there is one character at least per separator |
| Strings.JoinLinesSnoc | scripts/generate_env_example.py:34 | joining lines with one more line appends a newline and that line |
| Strings.JoinLinesEndsWith | scripts/generate_env_example.py:34 | the joined text ends with the last line |
| Strings.SplitJoin | scripts/generate_env_example.py:34 | splitting joined newline-free lines gives the lines back |
| Strings.JoinSplit | scripts/generate_env_example.py:34 | joining the split pieces of a text gives the text back |
| Strings.NatToString | scripts/generate_env_example.py:28 | canonical decimal digits: non-empty, and a leading `0` only in `0` itself |
| Strings.NatToStringRoundTrip | scripts/generate_env_example.py:28 | reading the digits back gives the number |
| Strings.IntToString | scripts/generate_env_example.py:28 | `str(i)`: the canonical digits of `i` (no leading zero), preceded by `-` exactly when `i` is negative |
| Validators.ValidateLogLevel | web/settings.py:64-68 | the stored level is upper-case and equals the given level ignoring case |
| Validators.ValidateLogLevelKeepsUpper | web/settings.py:64-68 | an upper-case level is kept unchanged |
| Validators.ValidateLogLevelIdempotent | web/settings.py:64-68 | validating twice equals validating once |
| Validators.DefaultCsrfKey | web/settings.py:70-76 | a supplied key is returned unchanged; a missing one becomes `secret_key`, or `""` if that is absent from the validated data |
| WebSettings.Load | web/settings.py:17-76 | every field is the supplied value or its default; the log level is upper-cased; an unsupplied CSRF key equals the secret key |
| WebSettings.LoadNothing | web/settings.py:17-76 | with nothing supplied, every field holds its default, and the CSRF key holds the default secret key |
| WebSettings.DefaultPathsUnderRoot | web/settings.py:46-55 | the default servers directory is `ROOT_PATH/servers` and the default database URL is `sqlite:///ROOT_PATH/adhoc_users.db` |
| WebSettings.LoadDefaults | web/settings.py:17-55 | the literal defaults: `HS256`, 1440 minutes, insecure cookies, host `0.0.0.0`, port 8000, reload and static files on, `INFO`, `default`, and the two paths under the root |
| WebSettings.LoadLogLevelCaseInsensitive | web/settings.py:64-68 | supplying the log level in lower case loads the same instance |
| WebSettings.Fields | web/settings.py:17-55 | the fourteen declared fields with their descriptions and defaults, in declaration order |
| WebSettings.Values | web/settings.py:17-55 | a loaded instance's fourteen values in declaration order |
| WebSettings.FieldsMatchLoadedDefaults | web/settings.py:17-76 | every recorded default is what an instance built from nothing holds, except the CSRF key: recorded as None, it loads as the secret key |
| AppConfig.Load | app/config.py:12-62 | the older class: every field is the supplied value or its default; same two validators |
| AppConfig.LoadDefaults | app/config.py:12-41 | the older defaults, including the relative `sqlite:///./adhoc_users.db` |
| EnvExample.DescriptionText | scripts/generate_env_example.py:19 | `description or ""`: the description when present, empty exactly when it is missing or empty |
| EnvExample.RenderDefault | scripts/generate_env_example.py:20-29 | a Path outside the root is shown as is, and a rewritten Path holds only its own characters and `.`; a non-negative int shows its decimal digits; None, bool and int render without newline |
| EnvExample.FieldLines | scripts/generate_env_example.py:30-32 | three lines per field: two comments and an empty line |
| EnvExample.AllFieldLines | scripts/generate_env_example.py:18-32 | the lines of all fields in order, three per field |
| EnvExample.EnvLines | scripts/generate_env_example.py:16-32 | the header and the field lines: `3 + 3·n` lines |
| EnvExample.GenerateEnvExample | scripts/generate_env_example.py:14-34 | the loop that appends three lines per field produces the joined header-plus-field lines |
| EnvExample.AllFieldLinesAt | scripts/generate_env_example.py:18-32 | field `k` owns lines `3k` to `3k+2` of the field part, in field order |
| EnvExample.EnvLinesShape | scripts/generate_env_example.py:16 | the output starts with the three header lines |
| EnvExample.AllFieldLinesCommented | scripts/generate_env_example.py:30-32 | every field line is a comment or empty |
| EnvExample.EnvLinesCommented | scripts/generate_env_example.py:16-32 | every line of the file is a comment or empty: the example documents each variable and sets none |
| EnvExample.EnvLinesAt | scripts/generate_env_example.py:18-32 | field `k` gives `# description` (`# ` without one), `# NAME=default` with the name upper-cased, then an empty line |
| EnvExample.RenderDefaultScalars | scripts/generate_env_example.py:25-29 | a None default renders as nothing; a bool as `True`/`False` |
| EnvExample.RenderPathUnderRoot | scripts/generate_env_example.py:23-24 | a path under the root is shown relative to `.` when the rest does not repeat the root |
| EnvExample.ReplaceRootTwice | scripts/generate_env_example.py:24 | two consecutive copies of the root both become `.` |
| EnvExample.RenderPathRewritesEveryOccurrence | scripts/generate_env_example.py:23-24 | every occurrence of the root is rewritten: root `/s` shows `/s/servers` as `..ervers` |
| EnvExample.UpperKeepsNewlinesOut | scripts/generate_env_example.py:31 | upper-casing does not introduce newlines |
| EnvExample.FieldLinesSingleLine | scripts/generate_env_example.py:30-32 | a field with newline-free parts gives newline-free lines |
| EnvExample.HeaderSingleLine | scripts/generate_env_example.py:16 | the header lines hold no newline |
| EnvExample.EnvLinesSingleLine | scripts/generate_env_example.py:16-32 | when no field puts a newline in its parts, no output line holds one |
| EnvExample.EnvTextSplitsIntoLines | scripts/generate_env_example.py:34 | the joined text splits back into exactly the generated lines |
| EnvExample.EnvTextEndsWithOneNewline | scripts/generate_env_example.py:32-34 | the text ends with exactly one newline whenever the last field's default does not render with a trailing newline |
| EnvExample.WebEnvEndsWithOneNewline | scripts/generate_env_example.py:16-34 | for the current settings class the text ends with exactly one newline, whatever the project root |
| EnvExample.WebEnvLineCount | scripts/generate_env_example.py:16-32 | the current settings class gives 45 lines |
| EnvExample.CsrfSecretKeyLine | scripts/generate_env_example.py:26-31 | a CSRF key without default in fifth place gives line 16 `# CSRF_SECRET_KEY=` |
| EnvExample.ServersDirLine | scripts/generate_env_example.py:23-31 | a servers directory under the root in thirteenth place gives line 40 `# SERVERS_DIR=./servers` |
| EnvExample.DatabaseUrlLine | scripts/generate_env_example.py:28-31 | a database URL string in last place gives line 43 with that URL verbatim |
| EnvExample.WebEnvCsrfLine | scripts/generate_env_example.py:26-31 | for the current settings class, line 16 is `# CSRF_SECRET_KEY=` |
| EnvExample.WebEnvServersDirLine | scripts/generate_env_example.py:23-31 | for the current settings class, line 40 is `# SERVERS_DIR=./servers` |
| EnvExample.WebEnvDatabaseUrlLine | scripts/generate_env_example.py:28-31 | the database URL is a string, not a Path, so line 43 keeps the absolute root: it is the URL an instance built from nothing holds |
| CreateAdmin.MaxId | scripts/create_admin.py:50-52 | an upper bound of every key in the table |
| CreateAdmin.NextId | scripts/create_admin.py:50-52 | the key of the next insert exceeds every key in use |
| CreateAdmin.FirstWithName | scripts/create_admin.py:37 | the query finds a row exactly when the username is taken, and the row has that username |
| CreateAdmin.Assigned | scripts/create_admin.py:50-51 | the committed rows are the pending objects in order, with consecutive new keys |
| CreateAdmin.InsertKeepsUnique | scripts/create_admin.py:50-51 | a commit that passes the unique constraint keeps keys and usernames unique |
| CreateAdmin.InsertOne | scripts/create_admin.py:46-51 | one object with a free username can be inserted and gets the next key |
| CreateAdmin.FirstWithNameAppended | scripts/create_admin.py:52 | after inserting a free username, looking it up finds the new row |
| CreateAdmin.UserStore.constructor | scripts/create_admin.py:32 | a table with unique usernames and no open session |
| CreateAdmin.Session.constructor | scripts/create_admin.py:34 | opening a session counts one more open session and changes no row |
| CreateAdmin.Session.FindByUsername | scripts/create_admin.py:37 | the loop over the committed rows returns the first row with the username |
| CreateAdmin.Session.Add | scripts/create_admin.py:50 | the object joins the pending ones |
| CreateAdmin.Session.Commit | scripts/create_admin.py:51 | all pending objects are inserted, or none; the commit succeeds iff the database does not fail and the constraint holds |
| CreateAdmin.Session.Refresh | scripts/create_admin.py:52 | the committed row is read back, unless the refresh fails |
| CreateAdmin.Session.Rollback | scripts/create_admin.py:57-58 | the pending objects are discarded and committed rows stay |
| CreateAdmin.Session.Close | scripts/create_admin.py:61-62 | the session is closed and no row changes |
| CreateAdmin.CreateAdminUser | scripts/create_admin.py:29-62 | a taken username leaves the table unchanged; otherwise, without faults, exactly one active user with the hashed password is appended, with the next key; any failure before commit leaves the table as it was; a failed refresh reports an error although the row is committed; every session is closed |
| CreateAdmin.EnteredUsername | scripts/create_admin.py:77-80 | the `--username` argument as given when non-empty; otherwise a slice of the answer from which only whitespace was cut at both ends, and which neither starts nor ends with whitespace |
| CreateAdmin.EnteredPassword | scripts/create_admin.py:87-91 | the `--password` argument when non-empty, otherwise the first password answer, unstripped |
| CreateAdmin.ReadCredentials | scripts/create_admin.py:76-107 | status 1 iff the username is empty or an interactive password is empty or mismatched; status 0 iff an interactive short password is not confirmed with `y`; otherwise it goes on with the unstripped argument or stripped answer, and a warning iff the password is shorter than 8 |
| CreateAdmin.RunScript | scripts/create_admin.py:65-109 | the script stops before creation exactly when the username is empty, an interactive password is empty or unconfirmed, or a short interactive password is not confirmed with `y`; it then exits 1 for the first two and 0 for the cancellation; creation succeeds exactly when no fault occurs and the username is free; an exit leaves the table untouched; going on always exits 0, whatever the creation outcome; with both arguments the user creation always runs; after a creation error the table is as before (the rollback), except when only the refresh after a successful commit failed, where the new user stays |
| AuthClient.Run | web/static/js/auth.js:21 | the greedy `[^;]+`: the longest run without `;` |
| AuthClient.FindCsrf | web/static/js/auth.js:21 | the leftmost match from a position on, or none |
| AuthClient.CsrfToken | web/static/js/auth.js:20-23 | null iff no position matches; otherwise the non-empty, `;`-free run after the leftmost matching name |
| AuthClient.RunExact | web/static/js/auth.js:21 | a run of non-`;` characters ended by `;` or the end is what `[^;]+` captures |
| AuthClient.RunOf | web/static/js/auth.js:21 | a value followed by `;` or the end is captured exactly |
| AuthClient.NoMatchBefore | web/static/js/auth.js:21 | no match starts in text without a `c` |
| AuthClient.MatchAtName | web/static/js/auth.js:21 | the name followed by a non-`;` character matches |
| AuthClient.CsrfTokenOfCookie | web/static/js/auth.js:20-23 | a cookie `before + csrf_token=v + rest` yields `v` when no `c` occurs in `before`, `v` is non-empty without `;`, and `rest` is empty or starts with `;`; a longer name such as `my_csrf_token` is matched too. An earlier `csrf_token=` inside another cookie's name or value wins: `a=xcsrf_token=zz; csrf_token=v` yields `zz` |
| AuthClient.AuthenticatedHeaders | web/static/js/auth.js:111-122 | `Authorization` is always `Bearer <token>` and overrides the caller's; `X-CSRF-Token` is set iff a method is given, it is not `GET`/`HEAD`, and the cookie holds a token; other caller headers are kept |
| AuthClient.LogoutHeaders | web/static/js/auth.js:36-43 | the bearer token, plus `X-CSRF-Token` iff the cookie holds one |
| AuthClient.LogoutHeadersAgree | web/static/js/auth.js:36-43 | logout sends what an authenticated POST without headers of its own would send |
| AuthClient.MeRequest | web/static/js/auth.js:68-72 | the verification request carries only the bearer token |
| AuthClient.Page.constructor | web/static/js/auth.js:3-4 | a page with the given storage and cookie, before any event |
| AuthClient.Page.GetToken | web/static/js/auth.js:3-5 | null iff no token is stored |
| AuthClient.Page.SetToken | web/static/js/auth.js:7-9 | reading back gives the token; other entries stay; authenticated iff the token is non-empty |
| AuthClient.Page.RemoveToken | web/static/js/auth.js:11-13 | reading back gives null; other entries stay |
| AuthClient.Page.IsAuthenticated | web/static/js/auth.js:15-17 | true iff a token is stored and is non-empty |
| AuthClient.Page.Logout | web/static/js/auth.js:26-57 | the token is removed before any request; the logout request is sent only if a non-empty token was stored; the page then goes to `/login` |
| AuthClient.Page.VerifyToken | web/static/js/auth.js:60-85 | valid iff a non-empty token is stored and the reply is ok; no request without a non-empty token; a non-ok reply or a network error removes the token |
| AuthClient.Page.CheckAuth | web/static/js/auth.js:60-100 | nothing on a public page; otherwise exactly these events: a `/api/auth/me` request only when a non-empty token is stored, removal of the token after a non-ok reply, and navigation to `/login` unless the token is valid |
| AuthClient.Page.AuthenticatedFetch | web/static/js/auth.js:103-137 | no token: go to `/login` and fail before any request; otherwise the request carries the composed headers; a 401 removes the token, goes to `/login` and fails; a network error fails without removal; other replies are returned |

## Left out

- Strings.Upper: Python's `str.upper` maps every Unicode letter, and this one maps only `a`–`z`, because Unicode case tables are outside the model.
- Strings.Lower: maps only `A`–`Z`, for the same reason.
- Strings.Strip: removes ASCII whitespace and the separators `\x1c`–`\x1f` only. Python also strips Unicode spaces.
- CreateAdmin.Session.Refresh: reloads the row by its unique username rather than by primary key. The two agree while usernames are unique, which every operation preserves.
- `init_db()` and table creation: the users table is assumed to exist. The `created_at` timestamp is a clock value and is not modelled.
- `hash_password` is a function parameter. Its salting, and so the varying hash of one password, is not modelled.
- Logging, `print` output, `getpass` echo suppression and the "Cancelled." messages are output only.
- Concurrent inserts between the duplicate check and the commit are not modelled. The modelled commit still enforces the unique constraint.
- Reading values from the environment and `.env` by pydantic-settings is not modelled: supplied values arrive already parsed. `Path` normalisation of a supplied `servers_dir` is also not modelled.
- `ROOT_PATH` is taken as an absolute path string. The resolution of `Path(__file__).parent.parent` is not modelled.
- The cookie `max_age` and the token issuing and checking of `app/routes/auth.py` are not modelled, since they call into `app/auth.py`, which is not part of this model.
- In `auth.js`:
  - `fetch` replies are inputs. Response bodies and the `Headers` class are not modelled.
  - Header names compare case-sensitively, as in the object literal the script builds. The merging of headers that differ only in case is not modelled.
  - Console logging is left out.
  - Navigation is an event. The page is assumed to keep running after it.
- The `async` functions of `auth.js` run without interference between their `await`s. Another tab or script can set or remove `access_token` while `fetch` is pending (`auth.js` lines 45, 68 and 124). The `storage` ensures of `AuthClient.Page.Logout`, `AuthClient.Page.VerifyToken` and `AuthClient.Page.AuthenticatedFetch` assume it does not.
- End of input or Ctrl-C at a prompt of `create_admin.py` (lines 80, 91, 95 and 104) is not modelled. Python then raises `EOFError` or `KeyboardInterrupt`, and `main` ends with a traceback and a non-zero status. `CreateAdmin.ReadCredentials` always receives an answer to every prompt.
- Application construction, middleware, the logging configuration and the server start-up files are not modelled.

=== FILE: app_config.dfy ===
/**
 * The older settings class of `app/config.py`: fewer fields than the
 * current one (no static-file switch, log format or servers directory) and a
 * relative default database location. Its validators are the same as the
 * current class's.
 */
module AppConfig {
  import opened Wrappers
  import opened Strings
  import V = Validators

  const DefaultSecretKey: string := "your-secret-key-change-in-production"
  const DefaultAlgorithm: string := "HS256"
  const DefaultExpireMinutes: int := 1440
  const DefaultSecureCookies: bool := false
  const DefaultHost: string := "0.0.0.0"
  const DefaultPort: int := 8000
  const DefaultReload: bool := true
  const DefaultAppName: string := "Ad Hoc Web UI"
  const DefaultLogLevel: string := "INFO"
  /** Relative to the working directory, unlike the current class's absolute default. */
  const DefaultDatabaseUrl: string := "sqlite:///./adhoc_users.db"

  datatype Settings = Settings(
    secretKey: string,
    algorithm: string,
    accessTokenExpireMinutes: int,
    secureCookies: bool,
    csrfSecretKey: string,
    host: string,
    port: int,
    reload: bool,
    appName: string,
    logLevel: string,
    databaseUrl: string)

  /** The values supplied by the environment or `.env`, parsed; None where absent. */
  datatype Overrides = Overrides(
    secretKey: Option<string>,
    algorithm: Option<string>,
    accessTokenExpireMinutes: Option<int>,
    secureCookies: Option<bool>,
    csrfSecretKey: Option<string>,
    host: Option<string>,
    port: Option<int>,
    reload: Option<bool>,
    appName: Option<string>,
    logLevel: Option<string>,
    databaseUrl: Option<string>)

  const NoOverrides: Overrides :=
    Overrides(None, None, None, None, None, None, None, None, None, None, None)

  /** `Settings()`: supplied value or default per field, then the two validators. */
  function Load(ov: Overrides): (s: Settings)
    ensures IsUpperCase(s.logLevel)
    ensures SameIgnoringCase(s.logLevel, ov.logLevel.GetOr(DefaultLogLevel))
    ensures ov.csrfSecretKey.None? ==> s.csrfSecretKey == s.secretKey
    ensures ov.csrfSecretKey.Some? ==> s.csrfSecretKey == ov.csrfSecretKey.value
    ensures s.secretKey == ov.secretKey.GetOr(DefaultSecretKey)
    ensures s.algorithm == ov.algorithm.GetOr(DefaultAlgorithm)
    ensures s.accessTokenExpireMinutes == ov.accessTokenExpireMinutes.GetOr(DefaultExpireMinutes)
    ensures s.secureCookies == ov.secureCookies.GetOr(DefaultSecureCookies)
    ensures s.host == ov.host.GetOr(DefaultHost)
    ensures s.port == ov.port.GetOr(DefaultPort)
    ensures s.reload == ov.reload.GetOr(DefaultReload)
    ensures s.appName == ov.appName.GetOr(DefaultAppName)
    ensures s.databaseUrl == ov.databaseUrl.GetOr(DefaultDatabaseUrl)
  {
    var secretKey := ov.secretKey.GetOr(DefaultSecretKey);
    Settings(
      secretKey,
      ov.algorithm.GetOr(DefaultAlgorithm),
      ov.accessTokenExpireMinutes.GetOr(DefaultExpireMinutes),
      ov.secureCookies.GetOr(DefaultSecureCookies),
      V.DefaultCsrfKey(ov.csrfSecretKey, Some(secretKey)),
      ov.host.GetOr(DefaultHost),
      ov.port.GetOr(DefaultPort),
      ov.reload.GetOr(DefaultReload),
      ov.appName.GetOr(DefaultAppName),
      V.ValidateLogLevel(ov.logLevel.GetOr(DefaultLogLevel)),
      ov.databaseUrl.GetOr(DefaultDatabaseUrl))
  }

  /** With nothing supplied, the instance holds the documented defaults. */
  lemma LoadDefaults()
    ensures Load(NoOverrides) == Settings(
      "your-secret-key-change-in-production", "HS256", 1440, false,
      "your-secret-key-change-in-production",
      "0.0.0.0", 8000, true,
      "Ad Hoc Web UI", "INFO", "sqlite:///./adhoc_users.db")
  {
    V.ValidateLogLevelKeepsUpper(DefaultLogLevel);
  }
}

=== FILE: auth_client.dfy ===
/**
 * `web/static/js/auth.js`: the browser-side token helpers. The page's
 * `localStorage` is a map field; `document.cookie` and the page's
 * `data-public-page` attribute are fixed for the page's life. What the page
 * does to the outside world (storing or removing the token, a `fetch`, an
 * assignment to `window.location.href`) is appended to an event log, and the
 * reply to a `fetch` is an input.
 */
module AuthClient {
  import opened Wrappers
  import opened Strings

  const TokenKey: string := "access_token"
  const LoginPath: string := "/login"
  const CsrfCookieName: string := "csrf_token="
  const AuthorizationHeader: string := "Authorization"
  const CsrfHeader: string := "X-CSRF-Token"

  /** JavaScript truthiness of a string that may be null: present and not empty. */
  predicate Truthy(o: Option<string>) {
    o.Some? && o.value != ""
  }

  // ---------------------------------------------------------------------------
  // getCsrfToken: /csrf_token=([^;]+)/ on document.cookie
  // ---------------------------------------------------------------------------

  /** `[^;]+` can start matching at `i`: the name occurs there and a character other than `;` follows it. */
  predicate MatchAt(cookie: string, i: int) {
    OccursAt(cookie, CsrfCookieName, i) && i + |CsrfCookieName| < |cookie| && cookie[i + |CsrfCookieName|] != ';'
  }

  /** `i` is where the regular expression matches: the leftmost position where it can. */
  predicate FirstMatch(cookie: string, i: int) {
    MatchAt(cookie, i) && forall i' :: 0 <= i' < i ==> !MatchAt(cookie, i')
  }

  /** The greedy `[^;]+` from `j`: the longest run of characters other than `;`. */
  function Run(s: string, j: nat): (v: string)
    requires j <= |s|
    ensures |v| <= |s| - j && v == s[j..j + |v|]
    ensures ';' !in v
    ensures j + |v| == |s| || s[j + |v|] == ';'
    decreases |s| - j
  {
    if j == |s| || s[j] == ';' then [] else [s[j]] + Run(s, j + 1)
  }

  function FindCsrf(cookie: string, from: nat): (r: Option<string>)
    requires from <= |cookie|
    ensures r.None? <==> forall i :: from <= i <= |cookie| ==> !MatchAt(cookie, i)
    ensures r.Some? ==> exists i :: (from <= i <= |cookie| && MatchAt(cookie, i) &&
                                    (forall i' :: from <= i' < i ==> !MatchAt(cookie, i')) &&
                                    r.value == Run(cookie, i + |CsrfCookieName|))
    decreases |cookie| - from
  {
    if from == |cookie| then None
    else if MatchAt(cookie, from) then Some(Run(cookie, from + |CsrfCookieName|))
    else FindCsrf(cookie, from + 1)
  }

  /**
   * `getCsrfToken()`: the capture group of the leftmost match, null when the
   * expression does not match. The match is not anchored to a cookie boundary.
   */
  function CsrfToken(cookie: string): (r: Option<string>)
    ensures r.None? <==> forall i :: 0 <= i <= |cookie| ==> !MatchAt(cookie, i)
    ensures r.Some? ==> exists i :: 0 <= i <= |cookie| && FirstMatch(cookie, i) && r.value == Run(cookie, i + |CsrfCookieName|)
    ensures r.Some? ==> r.value != [] && ';' !in r.value
  {
    var r := FindCsrf(cookie, 0);
    if r.None? then r
    else
      var i :| 0 <= i <= |cookie| && MatchAt(cookie, i) &&
               (forall i' :: 0 <= i' < i ==> !MatchAt(cookie, i')) &&
               r.value == Run(cookie, i + |CsrfCookieName|);
      assert FirstMatch(cookie, i);
      assert r.value != [] by {
        var j := i + |CsrfCookieName|;
        assert j < |cookie| && cookie[j] != ';';
      }
      r
  }

  /** The run from `j` is the `n` characters there when none is `;` and a `;` or the end follows them. */
  lemma {:induction false} RunExact(s: string, j: nat, n: nat)
    requires j + n <= |s|
    requires forall k :: j <= k < j + n ==> s[k] != ';'
    requires j + n == |s| || s[j + n] == ';'
    ensures Run(s, j) == s[j..j + n]
    decreases n
  {
    if n > 0 {
      RunExact(s, j + 1, n - 1);
      assert s[j..j + n] == [s[j]] + s[j + 1..j + n];
    }
  }

  /** The run starting at `|p|` in `p + v + rest` is exactly `v` when `rest` starts a new cookie or is empty. */
  lemma RunOf(p: string, v: string, rest: string)
    requires ';' !in v && (rest == [] || rest[0] == ';')
    ensures Run(p + v + rest, |p|) == v
  {
    var s := p + v + rest;
    forall k | |p| <= k < |p| + |v| ensures s[k] != ';' {
      assert s[k] == v[k - |p|];
    }
    if rest != [] {
      assert s[|p| + |v|] == rest[0];
    }
    RunExact(s, |p|, |v|);
    assert s[|p|..|p| + |v|] == v;
  }

  /** No match starts inside a text without a `c`, the name's first character. */
  lemma NoMatchBefore(before: string, tail: string)
    requires 'c' !in before
    ensures forall i :: 0 <= i < |before| ==> !MatchAt(before + tail, i)
  {
    var s := before + tail;
    forall i | 0 <= i < |before| ensures !MatchAt(s, i) {
      assert s[i] == before[i] != 'c' == CsrfCookieName[0];
      if i + |CsrfCookieName| <= |s| {
        assert s[i..i + |CsrfCookieName|][0] == s[i];
      }
    }
  }

  /** The name followed by a value that does not start with `;` is a match. */
  lemma MatchAtName(before: string, v: string, rest: string)
    requires v != [] && v[0] != ';'
    ensures MatchAt(before + CsrfCookieName + v + rest, |before|)
  {
    var s := before + CsrfCookieName + v + rest;
    var n := |before|;
    assert s[n..n + |CsrfCookieName|] == CsrfCookieName;
    assert s[n + |CsrfCookieName|] == v[0];
  }

  /**
   * A cookie string holding `csrf_token=v`, with no `c` before it and `v` ended
   * by `;` or the end of the string, yields `v`. The text before may end with
   * any name, e.g. `my_`, since the match is unanchored.
   */
  lemma CsrfTokenOfCookie(before: string, v: string, rest: string)
    requires 'c' !in before
    requires v != [] && ';' !in v && (rest == [] || rest[0] == ';')
    ensures CsrfToken(before + CsrfCookieName + v + rest) == Some(v)
  {
    var s := before + CsrfCookieName + v + rest;
    var n := |before|;
    MatchAtName(before, v, rest);
    assert s == before + (CsrfCookieName + v + rest);
    NoMatchBefore(before, CsrfCookieName + v + rest);
    var r := CsrfToken(s);
    assert r.Some?;
    var i :| 0 <= i <= |s| && FirstMatch(s, i) && r.value == Run(s, i + |CsrfCookieName|);
    assert i == n;
    assert s == (before + CsrfCookieName) + v + rest;
    RunOf(before + CsrfCookieName, v, rest);
  }

  // ---------------------------------------------------------------------------
  // Request headers
  // ---------------------------------------------------------------------------

  /** `options.method && options.method !== 'GET' && options.method !== 'HEAD'`. */
  predicate StateChanging(httpMethod: Option<string>) {
    Truthy(httpMethod) && httpMethod.value != "GET" && httpMethod.value != "HEAD"
  }

  /**
   * The headers object of `authenticatedFetch`: the caller's headers, then the
   * bearer token, then the CSRF token for a state-changing method when the
   * cookie holds one.
   */
  function AuthenticatedHeaders(caller: map<string, string>, token: string, httpMethod: Option<string>,
                                csrf: Option<string>): (h: map<string, string>)
    ensures AuthorizationHeader in h && h[AuthorizationHeader] == "Bearer " + token
    ensures StateChanging(httpMethod) && Truthy(csrf) ==> CsrfHeader in h && h[CsrfHeader] == csrf.value
    ensures h.Keys == caller.Keys + {AuthorizationHeader} + (if StateChanging(httpMethod) && Truthy(csrf) then {CsrfHeader} else {})
    ensures forall k :: k in caller && k != AuthorizationHeader && k != CsrfHeader ==> h[k] == caller[k]
    ensures !(StateChanging(httpMethod) && Truthy(csrf)) && CsrfHeader in caller ==> h[CsrfHeader] == caller[CsrfHeader]
  {
    var h := caller[AuthorizationHeader := "Bearer " + token];
    if StateChanging(httpMethod) && Truthy(csrf) then h[CsrfHeader := csrf.value] else h
  }

  /** The headers of the logout request: the bearer token, and the CSRF token when the cookie holds one. */
  function LogoutHeaders(token: string, csrf: Option<string>): (h: map<string, string>)
    ensures AuthorizationHeader in h && h[AuthorizationHeader] == "Bearer " + token
    ensures CsrfHeader in h <==> Truthy(csrf)
    ensures Truthy(csrf) ==> h[CsrfHeader] == csrf.value
    ensures h.Keys <= {AuthorizationHeader, CsrfHeader}
  {
    var h := map[AuthorizationHeader := "Bearer " + token];
    if Truthy(csrf) then h[CsrfHeader := csrf.value] else h
  }

  /** Logout sends what `authenticatedFetch` would send for a POST without headers of its own. */
  lemma LogoutHeadersAgree(token: string, csrf: Option<string>)
    ensures LogoutHeaders(token, csrf) == AuthenticatedHeaders(map[], token, Some("POST"), csrf)
  {
    assert StateChanging(Some("POST"));
  }

  // ---------------------------------------------------------------------------
  // The page
  // ---------------------------------------------------------------------------

  /** A `fetch` call: the URL, `options.httpMethod` and the headers object. */
  datatype Request = Request(url: string, httpMethod: Option<string>, headers: map<string, string>)

  /** What the page does to the outside world, in order. */
  datatype Event = TokenStored(token: string) | TokenRemoved | Fetched(request: Request) | Navigated(url: string)

  /** The settled `fetch` promise: a response with its status, or a rejection. */
  datatype Reply = Response(status: int) | NetworkError

  /** `response.ok`. */
  predicate Ok(r: Reply) {
    r.Response? && 200 <= r.status <= 299
  }

  /** `options` of `authenticatedFetch`. */
  datatype Options = Options(httpMethod: Option<string>, headers: map<string, string>)

  /** The errors `authenticatedFetch` throws or lets through. */
  datatype FetchError = NoAuthenticationToken | Unauthorized | NetworkFailure

  class Page {
    var storage: map<string, string>
    const cookie: string
    const publicPage: Option<string>
    var events: seq<Event>

    constructor (storage: map<string, string>, cookie: string, publicPage: Option<string>)
      ensures this.storage == storage && this.cookie == cookie && this.publicPage == publicPage && events == []
    {
      this.storage := storage;
      this.cookie := cookie;
      this.publicPage := publicPage;
      events := [];
    }

    /** `getToken()`: the stored token, null when there is none. */
    function GetToken(): (t: Option<string>)
      reads this
      ensures t.Some? <==> TokenKey in storage
    {
      if TokenKey in storage then Some(storage[TokenKey]) else None
    }

    /** `setToken(token)`: reading the token back gives `token`; other entries stay. */
    method SetToken(token: string)
      modifies this
      ensures GetToken() == Some(token)
      ensures storage == old(storage)[TokenKey := token]
      ensures events == old(events) + [TokenStored(token)]
      ensures IsAuthenticated() <==> token != ""
    {
      storage := storage[TokenKey := token];
      events := events + [TokenStored(token)];
    }

    /** `removeToken()`: reading the token back gives null; other entries stay. */
    method RemoveToken()
      modifies this
      ensures GetToken() == None && !IsAuthenticated()
      ensures storage == old(storage) - {TokenKey}
      ensures events == old(events) + [TokenRemoved]
    {
      storage := storage - {TokenKey};
      events := events + [TokenRemoved];
    }

    /** `isAuthenticated()`: `!!getToken()`, so an empty stored token does not count. */
    function IsAuthenticated(): (b: bool)
      reads this
      ensures b <==> TokenKey in storage && storage[TokenKey] != ""
    {
      Truthy(GetToken())
    }

    /**
     * `logout()`: the token is removed first; the logout request is sent only if
     * a token was stored, and its outcome is ignored; the page then goes to the
     * login page.
     */
    method Logout()
      modifies this
      ensures storage == old(storage) - {TokenKey}
      ensures old(Truthy(GetToken())) ==>
        events == old(events) + [TokenRemoved,
          Fetched(Request("/api/auth/logout", Some("POST"), LogoutHeaders(old(GetToken()).value, CsrfToken(cookie)))),
          Navigated(LoginPath)]
      ensures !old(Truthy(GetToken())) ==> events == old(events) + [TokenRemoved, Navigated(LoginPath)]
    {
      var token := GetToken();
      RemoveToken();
      if Truthy(token) {
        var csrf := CsrfToken(cookie);
        var headers := LogoutHeaders(token.value, csrf);
        events := events + [Fetched(Request("/api/auth/logout", Some("POST"), headers))];
      }
      events := events + [Navigated(LoginPath)];
    }

    /**
     * `verifyToken()`: false without a request when no token is stored;
     * otherwise the token is checked with `/api/auth/me` and removed unless the
     * reply is ok.
     */
    method VerifyToken(reply: Reply) returns (valid: bool)
      modifies this
      ensures valid <==> old(Truthy(GetToken())) && Ok(reply)
      ensures !old(Truthy(GetToken())) ==> storage == old(storage) && events == old(events)
      ensures old(Truthy(GetToken())) && Ok(reply) ==>
        storage == old(storage) && events == old(events) + [Fetched(MeRequest(old(GetToken()).value))]
      ensures old(Truthy(GetToken())) && !Ok(reply) ==>
        storage == old(storage) - {TokenKey} &&
        events == old(events) + [Fetched(MeRequest(old(GetToken()).value)), TokenRemoved]
    {
      var token := GetToken();
      if !Truthy(token) {
        return false;
      }
      events := events + [Fetched(MeRequest(token.value))];
      if Ok(reply) {
        return true;
      }
      RemoveToken();
      return false;
    }

    /**
     * `checkAuth()`: nothing on a public page; elsewhere the token is verified
     * and the page goes to the login page unless it is valid.
     */
    method CheckAuth(reply: Reply)
      modifies this
      ensures publicPage == Some("true") ==> storage == old(storage) && events == old(events)
      ensures publicPage != Some("true") ==>
        storage == if old(Truthy(GetToken())) && !Ok(reply) then old(storage) - {TokenKey} else old(storage)
      ensures publicPage != Some("true") ==>
        (|events| > |old(events)| && events[|events| - 1] == Navigated(LoginPath) <==>
          !(old(Truthy(GetToken())) && Ok(reply)))
      ensures publicPage != Some("true") ==>
        events == old(events)
          + (if old(Truthy(GetToken())) then [Fetched(MeRequest(old(GetToken()).value))] else [])
          + (if old(Truthy(GetToken())) && !Ok(reply) then [TokenRemoved] else [])
          + (if !(old(Truthy(GetToken())) && Ok(reply)) then [Navigated(LoginPath)] else [])
      ensures old(events) <= events
    {
      if publicPage == Some("true") {
        return;
      }
      var valid := VerifyToken(reply);
      if !valid {
        events := events + [Navigated(LoginPath)];
      }
    }

    /**
     * `authenticatedFetch(url, options)`: without a token, the page goes to the
     * login page and the call throws before any request. Otherwise the request
     * carries the composed headers; a 401 reply removes the token, goes to the
     * login page and throws; a rejected `fetch` propagates; any other reply is
     * returned.
     */
    method AuthenticatedFetch(url: string, options: Options, reply: Reply) returns (r: Result<int, FetchError>)
      modifies this
      ensures !old(Truthy(GetToken())) ==>
        r == Failure(NoAuthenticationToken) && storage == old(storage) && events == old(events) + [Navigated(LoginPath)]
      ensures old(Truthy(GetToken())) ==>
        |events| > |old(events)| &&
        events[|old(events)|] == Fetched(Request(url, options.httpMethod,
          AuthenticatedHeaders(options.headers, old(GetToken()).value, options.httpMethod, CsrfToken(cookie))))
      ensures old(Truthy(GetToken())) && reply == Response(401) ==>
        r == Failure(Unauthorized) && storage == old(storage) - {TokenKey} &&
        events[|old(events)| + 1..] == [TokenRemoved, Navigated(LoginPath)]
      ensures old(Truthy(GetToken())) && reply == NetworkError ==>
        r == Failure(NetworkFailure) && storage == old(storage) && |events| == |old(events)| + 1
      ensures old(Truthy(GetToken())) && reply.Response? && reply.status != 401 ==>
        r == Success(reply.status) && storage == old(storage) && |events| == |old(events)| + 1
      ensures old(events) <= events
    {
      var token := GetToken();
      if !Truthy(token) {
        events := events + [Navigated(LoginPath)];
        return Failure(NoAuthenticationToken);
      }
      var csrf: Option<string> := None;
      if StateChanging(options.httpMethod) {
        csrf := CsrfToken(cookie);
      }
      var headers := AuthenticatedHeaders(options.headers, token.value, options.httpMethod, csrf);
      assert headers == AuthenticatedHeaders(options.headers, token.value, options.httpMethod, CsrfToken(cookie));
      events := events + [Fetched(Request(url, options.httpMethod, headers))];
      if reply.NetworkError? {
        return Failure(NetworkFailure);
      }
      if reply.status == 401 {
        RemoveToken();
        events := events + [Navigated(LoginPath)];
        return Failure(Unauthorized);
      }
      return Success(reply.status);
    }
  }

  /** The request `verifyToken` sends: a GET of `/api/auth/me` with the bearer token only. */
  function MeRequest(token: string): (req: Request)
    ensures req.url == "/api/auth/me" && req.httpMethod.None?
    ensures req.headers.Keys == {AuthorizationHeader} && req.headers[AuthorizationHeader] == "Bearer " + token
  {
    Request("/api/auth/me", None, map[AuthorizationHeader := "Bearer " + token])
  }
}

=== FILE: create_admin.dfy ===
/**
 * `scripts/create_admin.py`: the command-line decisions of `main` and the
 * uniqueness-checked insert of `create_admin_user`.
 *
 * The users table is a sequence of rows in insertion order. A database session
 * holds the objects added to it until `commit`, which inserts them all or none.
 * Failures of the query, of `hash_password`, of the commit and of the refresh
 * are a parameter, since they come from outside the script.
 */
module CreateAdmin {
  import opened Wrappers
  import opened Strings

  // ---------------------------------------------------------------------------
  // The users table
  // ---------------------------------------------------------------------------

  /** A committed row: primary key, unique username, password hash, active flag. */
  datatype User = User(id: nat, username: string, hashedPassword: string, isActive: bool)

  /** A `User` object added to a session but not yet committed: it has no id. */
  datatype NewUser = NewUser(username: string, hashedPassword: string, isActive: bool)

  /** The primary key and the unique constraint on `username` hold. */
  predicate Unique(rows: seq<User>) {
    forall i, j :: 0 <= i < j < |rows| ==> rows[i].id != rows[j].id && rows[i].username != rows[j].username
  }

  predicate Taken(rows: seq<User>, name: string) {
    exists i :: 0 <= i < |rows| && rows[i].username == name
  }

  function MaxId(rows: seq<User>): (m: nat)
    ensures forall i :: 0 <= i < |rows| ==> rows[i].id <= m
  {
    if rows == [] then 0
    else
      var m := MaxId(rows[1..]);
      if rows[0].id > m then rows[0].id else m
  }

  /** The key SQLite gives the next inserted row: one more than the largest key in use. */
  function NextId(rows: seq<User>): (id: nat)
    ensures forall i :: 0 <= i < |rows| ==> rows[i].id < id
  {
    MaxId(rows) + 1
  }

  /** The first row with the given username, as `query(User).filter(...).first()` returns it. */
  function FirstWithName(rows: seq<User>, name: string): (r: Option<User>)
    ensures r.Some? <==> Taken(rows, name)
    ensures r.Some? ==> r.value in rows && r.value.username == name
  {
    if rows == [] then None
    else if rows[0].username == name then Some(rows[0])
    else
      var r := FirstWithName(rows[1..], name);
      assert Taken(rows[1..], name) ==> Taken(rows, name) by {
        if Taken(rows[1..], name) {
          var i :| 0 <= i < |rows[1..]| && rows[1..][i].username == name;
          assert rows[i + 1].username == name;
        }
      }
      r
  }

  /** The pending objects can be inserted: no username is already taken or repeated. */
  predicate Insertable(rows: seq<User>, pending: seq<NewUser>) {
    (forall k :: 0 <= k < |pending| ==> !Taken(rows, pending[k].username)) &&
    (forall k, l :: 0 <= k < l < |pending| ==> pending[k].username != pending[l].username)
  }

  /** The rows a commit appends: the pending objects in order, keyed from `NextId(rows)` on. */
  function Assigned(rows: seq<User>, pending: seq<NewUser>): (added: seq<User>)
    ensures |added| == |pending|
    ensures forall k :: 0 <= k < |pending| ==>
      added[k] == User(NextId(rows) + k, pending[k].username, pending[k].hashedPassword, pending[k].isActive)
  {
    seq(|pending|, k requires 0 <= k < |pending| =>
      User(NextId(rows) + k, pending[k].username, pending[k].hashedPassword, pending[k].isActive))
  }

  /** A commit that passes the unique constraint keeps keys and usernames unique. */
  lemma InsertKeepsUnique(rows: seq<User>, pending: seq<NewUser>)
    requires Unique(rows) && Insertable(rows, pending)
    ensures Unique(rows + Assigned(rows, pending))
  {
    var added := Assigned(rows, pending);
    var all := rows + added;
    forall i, j | 0 <= i < j < |all|
      ensures all[i].id != all[j].id && all[i].username != all[j].username
    {
      if j >= |rows| {
        var l := j - |rows|;
        assert all[j] == added[l];
        if i < |rows| {
          assert all[i] == rows[i];
          assert rows[i].id < NextId(rows);
          assert rows[i].username != pending[l].username by {
            assert !Taken(rows, pending[l].username);
          }
        } else {
          assert all[i] == added[i - |rows|];
        }
      }
    }
  }

  /** The stored table and the number of sessions open on it. */
  class UserStore {
    var rows: seq<User>
    var openSessions: nat

    constructor (rows: seq<User>)
      requires Unique(rows)
      ensures this.rows == rows && openSessions == 0
    {
      this.rows := rows;
      openSessions := 0;
    }
  }

  /** `SessionLocal()`: a session without autoflush, so queries see committed rows only. */
  class Session {
    const store: UserStore
    var pending: seq<NewUser>
    var isOpen: bool

    constructor (store: UserStore)
      modifies store
      ensures this.store == store && pending == [] && isOpen
      ensures store.rows == old(store.rows) && store.openSessions == old(store.openSessions) + 1
    {
      this.store := store;
      pending := [];
      isOpen := true;
      store.openSessions := store.openSessions + 1;
    }

    /** The filtered query's `first()`, scanning the committed rows in order. */
    method FindByUsername(name: string) returns (found: Option<User>)
      requires isOpen
      ensures found == FirstWithName(store.rows, name)
    {
      var rows := store.rows;
      var i := 0;
      while i < |rows|
        invariant 0 <= i <= |rows|
        invariant FirstWithName(rows[i..], name) == FirstWithName(rows, name)
      {
        assert rows[i..][1..] == rows[i + 1..];
        if rows[i].username == name {
          return Some(rows[i]);
        }
        i := i + 1;
      }
      assert rows[i..] == [];
      return None;
    }

    /** `add`: the object joins the pending ones. */
    method Add(u: NewUser)
      requires isOpen
      modifies this
      ensures pending == old(pending) + [u] && isOpen
    {
      pending := pending + [u];
    }

    /**
     * `commit`: all pending objects are inserted, or, when the unique constraint
     * or the database refuses, none is and the pending ones stay.
     */
    method Commit(fails: bool) returns (ok: bool)
      requires isOpen && Unique(store.rows)
      modifies this, store
      ensures ok <==> !fails && Insertable(old(store.rows), old(pending))
      ensures ok ==> store.rows == old(store.rows) + Assigned(old(store.rows), old(pending)) && pending == []
      ensures !ok ==> store.rows == old(store.rows) && pending == old(pending)
      ensures Unique(store.rows) && isOpen && store.openSessions == old(store.openSessions)
    {
      if fails || !Insertable(store.rows, pending) {
        return false;
      }
      InsertKeepsUnique(store.rows, pending);
      store.rows := store.rows + Assigned(store.rows, pending);
      pending := [];
      return true;
    }

    /** `refresh`: the row stored for a committed object, read back by its unique username. */
    method Refresh(name: string, fails: bool) returns (row: Option<User>)
      requires isOpen
      ensures fails ==> row.None?
      ensures !fails ==> row == FirstWithName(store.rows, name)
    {
      if fails {
        return None;
      }
      row := FindByUsername(name);
    }

    /** `rollback`: the pending objects are discarded; committed rows stay. */
    method Rollback()
      requires isOpen
      modifies this
      ensures pending == [] && isOpen
    {
      pending := [];
    }

    /** `close`: the session ends, dropping what was never committed. */
    method Close()
      requires isOpen && store.openSessions > 0
      modifies this, store
      ensures !isOpen && pending == []
      ensures store.rows == old(store.rows) && store.openSessions == old(store.openSessions) - 1
    {
      isOpen := false;
      pending := [];
      store.openSessions := store.openSessions - 1;
    }
  }

  /** A single object with a free username can be inserted, and gets the next key. */
  lemma InsertOne(rows: seq<User>, u: NewUser)
    requires !Taken(rows, u.username)
    ensures Insertable(rows, [u])
    ensures Assigned(rows, [u]) == [User(NextId(rows), u.username, u.hashedPassword, u.isActive)]
  {
  }

  /** In a table with unique usernames, the row of a just-appended user is that user. */
  lemma {:induction false} FirstWithNameAppended(rows: seq<User>, u: User)
    requires !Taken(rows, u.username)
    ensures FirstWithName(rows + [u], u.username) == Some(u)
  {
    if rows != [] {
      assert (rows + [u])[0] == rows[0] && rows[0].username != u.username;
      assert (rows + [u])[1..] == rows[1..] + [u];
      assert !Taken(rows[1..], u.username) by {
        forall i | 0 <= i < |rows[1..]| ensures rows[1..][i].username != u.username {
          assert rows[1..][i] == rows[i + 1];
        }
      }
      FirstWithNameAppended(rows[1..], u);
    }
  }

  // ---------------------------------------------------------------------------
  // create_admin_user
  // ---------------------------------------------------------------------------

  /** Where an exception is raised, if anywhere. */
  datatype Fault = NoFault | QueryFails | HashFails | CommitFails | RefreshFails

  /** What the script reports: the duplicate message, success with the new id, or an error. */
  datatype Outcome = AlreadyExists | Created(id: nat) | Error

  /**
   * `create_admin_user(username, password)`: the query, then on a free username
   * the hash, `add`, `commit` and `refresh`; any exception rolls back; the
   * session is closed on every path.
   */
  method CreateAdminUser(store: UserStore, username: string, password: string,
                         hash: string -> string, fault: Fault) returns (outcome: Outcome)
    requires Unique(store.rows)
    modifies store
    ensures Unique(store.rows)
    ensures store.openSessions == old(store.openSessions)
    ensures outcome.AlreadyExists? <==> fault != QueryFails && Taken(old(store.rows), username)
    ensures outcome.Created? <==> fault == NoFault && !Taken(old(store.rows), username)
    ensures outcome.Created? ==> outcome.id == NextId(old(store.rows))
    ensures outcome.Created? ==>
      store.rows == old(store.rows) + [User(outcome.id, username, hash(password), true)]
    ensures fault == RefreshFails && !Taken(old(store.rows), username) ==>
      outcome.Error? && store.rows == old(store.rows) + [User(NextId(old(store.rows)), username, hash(password), true)]
    ensures !outcome.Created? && !(fault == RefreshFails && outcome.Error?) ==> store.rows == old(store.rows)
  {
    var rows0 := store.rows;
    var db := new Session(store);
    if fault == QueryFails {
      db.Rollback();
      outcome := Error;
    } else {
      var existing := db.FindByUsername(username);
      if existing.Some? {
        outcome := AlreadyExists;
      } else if fault == HashFails {
        db.Rollback();
        outcome := Error;
      } else {
        var hashed := hash(password);
        var newUser := NewUser(username, hashed, true);
        db.Add(newUser);
        assert db.pending == [newUser];
        InsertOne(rows0, newUser);
        var committed := db.Commit(fault == CommitFails);
        assert committed <==> fault != CommitFails;
        if !committed {
          db.Rollback();
          outcome := Error;
        } else {
          var user := User(NextId(rows0), username, hashed, true);
          assert store.rows == rows0 + [user];
          FirstWithNameAppended(rows0, user);
          var row := db.Refresh(username, fault == RefreshFails);
          assert row.Some? <==> fault != RefreshFails;
          if row.None? {
            db.Rollback();
            outcome := Error;
          } else {
            outcome := Created(row.value.id);
          }
        }
      }
    }
    db.Close();
  }

  // ---------------------------------------------------------------------------
  // main: arguments and prompts
  // ---------------------------------------------------------------------------

  /** `--username` and `--password`, None when not given. */
  datatype Args = Args(username: Option<string>, password: Option<string>)

  /** What the user would type at each prompt; a prompt that is not shown is not read. */
  datatype Answers = Answers(username: string, password: string, confirm: string, proceed: string)

  /** `sys.exit(code)`, or going on to create the user, with or without the short-password warning. */
  datatype Decision = Exit(code: int) | Proceed(username: string, password: string, warned: bool)

  /** Python truthiness of an optional argument: given and not empty. */
  predicate Given(o: Option<string>) {
    o.Some? && o.value != ""
  }

  /**
   * The username `main` works with: the argument as given, or the answer with
   * surrounding whitespace removed.
   */
  function EnteredUsername(args: Args, answers: Answers): (u: string)
    ensures Given(args.username) ==> u == args.username.value && u != ""
    ensures !Given(args.username) ==> u == [] || (!IsSpace(u[0]) && !IsSpace(u[|u| - 1]))
    ensures !Given(args.username) ==>
      exists i, j :: 0 <= i <= j <= |answers.username| && u == answers.username[i..j] &&
        AllSpace(answers.username[..i]) && AllSpace(answers.username[j..])
  {
    if Given(args.username) then args.username.value else Strip(answers.username)
  }

  /** The password `main` works with: the argument, or the first password answer, never stripped. */
  function EnteredPassword(args: Args, answers: Answers): (pw: string)
    ensures Given(args.password) ==> pw == args.password.value && pw != ""
    ensures !Given(args.password) ==> pw == answers.password
  {
    if Given(args.password) then args.password.value else answers.password
  }

  /** The guarded exits of `main` up to the call of `create_admin_user`. */
  method ReadCredentials(args: Args, answers: Answers) returns (d: Decision)
    ensures d == Exit(1) <==>
      EnteredUsername(args, answers) == "" ||
      (!Given(args.password) && (answers.password == "" || answers.password != answers.confirm))
    ensures d == Exit(0) <==>
      EnteredUsername(args, answers) != "" && !Given(args.password) &&
      answers.password != "" && answers.password == answers.confirm &&
      |answers.password| < 8 && Lower(Strip(answers.proceed)) != "y"
    ensures d.Exit? ==> d.code == 0 || d.code == 1
    ensures d.Proceed? ==>
      d.username == EnteredUsername(args, answers) && d.username != "" &&
      d.password == EnteredPassword(args, answers) && d.password != "" &&
      d.warned == (|d.password| < 8)
    ensures Given(args.username) && Given(args.password) ==>
      d == Proceed(args.username.value, args.password.value, |args.password.value| < 8)
  {
    var username: string;
    if Given(args.username) {
      username := args.username.value;
    } else {
      username := Strip(answers.username);
    }
    if username == "" {
      return Exit(1);
    }

    var password: string;
    var confirm: string;
    if Given(args.password) {
      password := args.password.value;
      confirm := args.password.value;
    } else {
      password := answers.password;
      if password == "" {
        return Exit(1);
      }
      confirm := answers.confirm;
    }
    if password != confirm {
      return Exit(1);
    }

    var warned := false;
    if |password| < 8 {
      warned := true;
      if !Given(args.password) {
        var proceed := Lower(Strip(answers.proceed));
        if proceed != "y" {
          return Exit(0);
        }
      }
    }
    return Proceed(username, password, warned);
  }

  /**
   * `main`: the decisions, then `create_admin_user`, whose errors are reported
   * but do not change the exit status.
   */
  method RunScript(store: UserStore, args: Args, answers: Answers, hash: string -> string, fault: Fault)
    returns (code: int, outcome: Option<Outcome>)
    requires Unique(store.rows)
    modifies store
    ensures Unique(store.rows) && store.openSessions == old(store.openSessions)
    ensures code == 0 || code == 1
    ensures outcome.Some? ==> code == 0
    ensures outcome.None? ==> store.rows == old(store.rows)
    ensures Given(args.username) && Given(args.password) ==> outcome.Some?
    ensures outcome.None? <==>
      EnteredUsername(args, answers) == "" ||
      (!Given(args.password) && (answers.password == "" || answers.password != answers.confirm)) ||
      (!Given(args.password) && |answers.password| < 8 && Lower(Strip(answers.proceed)) != "y")
    ensures outcome.None? ==>
      (code == 1 <==>
        EnteredUsername(args, answers) == "" ||
        (!Given(args.password) && (answers.password == "" || answers.password != answers.confirm)))
    ensures outcome.Some? ==>
      (outcome.value.Created? <==> fault == NoFault && !Taken(old(store.rows), EnteredUsername(args, answers)))
    ensures outcome.Some? && outcome.value.Created? ==>
      store.rows == old(store.rows) +
        [User(outcome.value.id, EnteredUsername(args, answers), hash(EnteredPassword(args, answers)), true)]
    ensures outcome.Some? && outcome.value.AlreadyExists? ==>
      store.rows == old(store.rows) && Taken(store.rows, EnteredUsername(args, answers))
    ensures outcome.Some? && outcome.value.Error? ==>
      if fault == RefreshFails && !Taken(old(store.rows), EnteredUsername(args, answers)) then
        store.rows == old(store.rows) +
          [User(NextId(old(store.rows)), EnteredUsername(args, answers), hash(EnteredPassword(args, answers)), true)]
      else
        store.rows == old(store.rows)
  {
    var d := ReadCredentials(args, answers);
    if d.Exit? {
      return d.code, None;
    }
    var o := CreateAdminUser(store, d.username, d.password, hash, fault);
    return 0, Some(o);
  }
}

=== FILE: env_example.dfy ===
/**
 * `scripts/generate_env_example.py`: the text of `.env.example`, built line by
 * line from the settings fields. A header of three lines comes first; then each
 * field gives a comment with its description, a commented-out `NAME=default`
 * assignment and an empty line. The lines are joined with newlines.
 */
module EnvExample {
  import opened Wrappers
  import opened Strings
  import opened WebSettings

  const Header: seq<string> := ["# Configuration for Ad Hoc Web UI", "# Copy to .env and modify as needed", ""]

  /**
   * Every line is a comment or empty, so the example file as generated sets no
   * variable.
   */
  predicate Commented(lines: seq<string>) {
    forall j :: 0 <= j < |lines| ==> lines[j] == "" || lines[j][0] == '#'
  }

  /** `field_info.description or ""`: empty exactly when the description is missing or empty. */
  function DescriptionText(f: FieldInfo): (d: string)
    ensures f.description.Some? ==> d == f.description.value
    ensures d == "" <==> f.description.None? || f.description.value == ""
  {
    match f.description
    case Some(d) => d
    case None => ""
  }

  /**
   * The text after `=` for a default: a Path with every occurrence of the
   * project root replaced by `.`, nothing for None, `str()` of anything else.
   */
  function RenderDefault(d: DefaultValue, root: string): (r: string)
    ensures d.PathValue? && root != [] && !Contains(d.p, root) ==> r == d.p
    ensures d.PathValue? ==> forall j :: 0 <= j < |r| ==> r[j] in d.p || r[j] == '.'
    ensures d.IntValue? && d.i >= 0 ==> IsDecimal(r) && DigitsValue(r) == d.i
    ensures d.IntValue? || d.BoolValue? || d.NoneValue? ==> '\n' !in r
  {
    match d
    case PathValue(p) =>
      ReplaceAllAbsent(p, root, ".");
      ReplaceAll(p, root, ".")
    case NoneValue => ""
    case StrValue(s) => s
    case IntValue(i) => IntToString(i)
    case BoolValue(b) => if b then "True" else "False"
  }

  /** The commented-out assignment line of a field. */
  function AssignmentLine(f: FieldInfo, root: string): string {
    "# " + Upper(f.name) + "=" + RenderDefault(f.default, root)
  }

  /** The three lines one field contributes: two comments and an empty line. */
  function FieldLines(f: FieldInfo, root: string): (ls: seq<string>)
    ensures |ls| == 3 && ls[2] == ""
    ensures ls[0] != [] && ls[0][0] == '#' && ls[1] != [] && ls[1][0] == '#'
  {
    ["# " + DescriptionText(f), AssignmentLine(f, root), ""]
  }

  /** The lines of all fields, in field order: three per field. */
  function AllFieldLines(fields: seq<FieldInfo>, root: string): (ls: seq<string>)
    ensures |ls| == 3 * |fields|
  {
    if fields == [] then []
    else AllFieldLines(fields[..|fields| - 1], root) + FieldLines(fields[|fields| - 1], root)
  }

  /** Every line of the generated file: the header and three lines per field. */
  function EnvLines(fields: seq<FieldInfo>, root: string): (ls: seq<string>)
    ensures |ls| == 3 + 3 * |fields|
  {
    Header + AllFieldLines(fields, root)
  }

  /** `generate_env_example()` over the given fields and project root. */
  method GenerateEnvExample(fields: seq<FieldInfo>, root: string) returns (text: string)
    ensures text == JoinLines(EnvLines(fields, root))
  {
    var lines := Header;
    for i := 0 to |fields|
      invariant lines == Header + AllFieldLines(fields[..i], root)
    {
      var f := fields[i];
      var description := DescriptionText(f);
      var defaultStr := RenderDefault(f.default, root);
      lines := lines + ["# " + description];
      lines := lines + ["# " + Upper(f.name) + "=" + defaultStr];
      lines := lines + [""];
      assert fields[..i + 1][..i] == fields[..i];
    }
    assert fields[..|fields|] == fields;
    text := JoinLines(lines);
  }

  // ---------------------------------------------------------------------------
  // Shape of the generated lines
  // ---------------------------------------------------------------------------

  /** Field `k` owns lines 3k, 3k+1 and 3k+2 of the field part. */
  lemma {:induction false} AllFieldLinesAt(fields: seq<FieldInfo>, root: string, k: nat)
    requires k < |fields|
    ensures |AllFieldLines(fields, root)| == 3 * |fields|
    ensures AllFieldLines(fields, root)[3 * k] == FieldLines(fields[k], root)[0]
    ensures AllFieldLines(fields, root)[3 * k + 1] == FieldLines(fields[k], root)[1]
    ensures AllFieldLines(fields, root)[3 * k + 2] == FieldLines(fields[k], root)[2]
  {
    var n := |fields|;
    var init := fields[..n - 1];
    var prefix, last := AllFieldLines(init, root), FieldLines(fields[n - 1], root);
    assert AllFieldLines(fields, root) == prefix + last;
    if k < n - 1 {
      AllFieldLinesAt(init, root, k);
      assert init[k] == fields[k];
    }
  }

  /** The file opens with the three header lines. */
  lemma EnvLinesShape(fields: seq<FieldInfo>, root: string)
    ensures EnvLines(fields, root)[..3] == Header
  {
  }

  lemma CommentedConcat(a: seq<string>, b: seq<string>)
    requires Commented(a) && Commented(b)
    ensures Commented(a + b)
  {
    forall j | 0 <= j < |a + b| ensures (a + b)[j] == "" || (a + b)[j][0] == '#' {
      if j < |a| {
        assert (a + b)[j] == a[j];
      } else {
        assert (a + b)[j] == b[j - |a|];
      }
    }
  }

  /** The lines of the fields are comments or empty. */
  lemma {:induction false} AllFieldLinesCommented(fields: seq<FieldInfo>, root: string)
    ensures Commented(AllFieldLines(fields, root))
  {
    if fields != [] {
      var init, last := fields[..|fields| - 1], FieldLines(fields[|fields| - 1], root);
      AllFieldLinesCommented(init, root);
      CommentedConcat(AllFieldLines(init, root), last);
    }
  }

  /**
   * Every line of the generated file is a comment or empty: the example documents
   * each variable but sets none.
   */
  lemma EnvLinesCommented(fields: seq<FieldInfo>, root: string)
    ensures Commented(EnvLines(fields, root))
  {
    AllFieldLinesCommented(fields, root);
    assert Commented(Header) by {
      assert Header[0][0] == '#' && Header[1][0] == '#' && Header[2] == "";
    }
    CommentedConcat(Header, AllFieldLines(fields, root));
  }

  /**
   * Field `k` in declaration order gives lines 3k+3 to 3k+5: its description
   * after `# ` (`# ` alone when it has none), its upper-cased name with the
   * rendered default, and an empty line.
   */
  lemma EnvLinesAt(fields: seq<FieldInfo>, root: string, k: nat)
    requires k < |fields|
    ensures |EnvLines(fields, root)| == 3 + 3 * |fields|
    ensures EnvLines(fields, root)[3 * k + 3] == "# " + DescriptionText(fields[k])
    ensures fields[k].description.None? ==> EnvLines(fields, root)[3 * k + 3] == "# "
    ensures EnvLines(fields, root)[3 * k + 4] == "# " + Upper(fields[k].name) + "=" + RenderDefault(fields[k].default, root)
    ensures EnvLines(fields, root)[3 * k + 5] == ""
  {
    AllFieldLinesAt(fields, root, k);
    var all := AllFieldLines(fields, root);
    assert EnvLines(fields, root) == Header + all;
    if fields[k].description.None? {
      assert "# " + DescriptionText(fields[k]) == "# ";
    }
  }

  // ---------------------------------------------------------------------------
  // Rendering of defaults
  // ---------------------------------------------------------------------------

  /** A None default leaves nothing after `=`; a bool is `True` or `False`. */
  lemma RenderDefaultScalars(root: string, b: bool)
    ensures RenderDefault(NoneValue, root) == ""
    ensures RenderDefault(BoolValue(b), root) == (if b then "True" else "False")
  {
  }

  /** A path under the project root is shown relative to `.`, when the rest does not repeat the root. */
  lemma RenderPathUnderRoot(root: string, rest: string)
    requires root != [] && !Contains(rest, root)
    ensures RenderDefault(PathValue(root + rest), root) == "." + rest
  {
    ReplaceAllLeading(root, rest, ".");
    ReplaceAllAbsent(rest, root, ".");
  }

  /** A root repeated twice in a row is rewritten twice. */
  lemma ReplaceRootTwice(root: string, rest: string)
    requires root != [] && !Contains(rest, root)
    ensures ReplaceAll(root + (root + rest), root, ".") == ".." + rest
  {
    ReplaceAllLeading(root, root + rest, ".");
    ReplaceAllLeading(root, rest, ".");
    ReplaceAllAbsent(rest, root, ".");
  }

  /**
   * Every occurrence of the root is rewritten, not only the leading one: with
   * the project at `/s` (c = 's'), the servers directory `/s/servers`
   * (rest = "ervers") is shown as `..ervers`, not `./servers`.
   */
  lemma RenderPathRewritesEveryOccurrence(c: char, rest: string)
    requires c != '/' && '/' !in rest
    ensures RenderDefault(PathValue(PathJoin("/" + [c], [c] + rest)), "/" + [c]) == ".." + rest
  {
    var root := "/" + [c];
    assert root[|root| - 1] == c;
    assert PathJoin(root, [c] + rest) == root + (root + rest);
    NotContainsFirstChar(rest, root);
    ReplaceRootTwice(root, rest);
  }

  // ---------------------------------------------------------------------------
  // The joined text
  // ---------------------------------------------------------------------------

  /** No field puts a newline into its lines. */
  predicate SingleLineFields(fields: seq<FieldInfo>, root: string) {
    forall k :: 0 <= k < |fields| ==>
      '\n' !in DescriptionText(fields[k]) && '\n' !in fields[k].name && '\n' !in RenderDefault(fields[k].default, root)
  }

  lemma UpperKeepsNewlinesOut(s: string)
    requires '\n' !in s
    ensures '\n' !in Upper(s)
  {
    forall i | 0 <= i < |s| ensures Upper(s)[i] != '\n' {
      assert LowerChar(Upper(s)[i]) == LowerChar(s[i]);
    }
  }

  lemma FieldLinesSingleLine(f: FieldInfo, root: string)
    requires '\n' !in DescriptionText(f) && '\n' !in f.name && '\n' !in RenderDefault(f.default, root)
    ensures NoNewlines(FieldLines(f, root))
  {
    UpperKeepsNewlinesOut(f.name);
    var u, r := Upper(f.name), RenderDefault(f.default, root);
    assert "# " + u + "=" + r == "# " + u + ("=" + r);
  }

  lemma HeaderSingleLine()
    ensures NoNewlines(Header)
  {
    var h0, h1 := "# Configuration for Ad Hoc Web UI", "# Copy to .env and modify as needed";
    assert forall i :: 0 <= i < |h0| ==> h0[i] != '\n';
    assert forall i :: 0 <= i < |h1| ==> h1[i] != '\n';
    assert Header == [h0, h1, ""];
  }

  lemma {:induction false} EnvLinesSingleLine(fields: seq<FieldInfo>, root: string)
    requires SingleLineFields(fields, root)
    ensures NoNewlines(AllFieldLines(fields, root))
    ensures NoNewlines(EnvLines(fields, root))
  {
    if fields != [] {
      var n := |fields|;
      var init := fields[..n - 1];
      assert SingleLineFields(init, root) by {
        forall k | 0 <= k < n - 1
          ensures '\n' !in DescriptionText(init[k]) && '\n' !in init[k].name && '\n' !in RenderDefault(init[k].default, root)
        {
          assert init[k] == fields[k];
        }
      }
      EnvLinesSingleLine(init, root);
      FieldLinesSingleLine(fields[n - 1], root);
      assert AllFieldLines(fields, root) == AllFieldLines(init, root) + FieldLines(fields[n - 1], root);
      NoNewlinesConcat(AllFieldLines(init, root), FieldLines(fields[n - 1], root));
    }
    HeaderSingleLine();
    NoNewlinesConcat(Header, AllFieldLines(fields, root));
  }

  /** The text splits back into exactly the generated lines. */
  lemma EnvTextSplitsIntoLines(fields: seq<FieldInfo>, root: string)
    requires SingleLineFields(fields, root)
    ensures SplitLines(JoinLines(EnvLines(fields, root))) == EnvLines(fields, root)
  {
    EnvLinesSingleLine(fields, root);
    EnvLinesShape(fields, root);
    SplitJoin(EnvLines(fields, root));
  }

  predicate NoTrailingNewline(s: string) {
    s == [] || s[|s| - 1] != '\n'
  }

  /** Joined lines that end with an empty line after a line not ending in a newline end in exactly one newline. */
  lemma JoinEndsWithOneNewline(lines: seq<string>)
    requires |lines| >= 2 && lines[|lines| - 1] == ""
    requires lines[|lines| - 2] != [] && NoTrailingNewline(lines[|lines| - 2])
    ensures var t := JoinLines(lines); |t| >= 2 && t[|t| - 1] == '\n' && t[|t| - 2] != '\n'
  {
    var init := lines[..|lines| - 1];
    var last := init[|init| - 1];
    assert lines == init + [""];
    JoinLinesSnoc(init, "");
    JoinLinesEndsWith(init);
    var j := JoinLines(init);
    assert j[|j| - 1] == last[|last| - 1];
  }

  /** The line before the final empty one is not empty and does not end in a newline. */
  lemma LastFieldLine(fields: seq<FieldInfo>, root: string)
    requires fields == [] || NoTrailingNewline(RenderDefault(fields[|fields| - 1].default, root))
    ensures var ls := EnvLines(fields, root); ls[|ls| - 1] == "" && ls[|ls| - 2] != [] && NoTrailingNewline(ls[|ls| - 2])
  {
    var ls := EnvLines(fields, root);
    if fields == [] {
      EnvLinesShape(fields, root);
      assert ls[1] == Header[1];
      assert ls[1][|ls[1]| - 1] == 'd';
    } else {
      var k := |fields| - 1;
      var f := fields[k];
      EnvLinesAt(fields, root, k);
      var a, r := "# " + Upper(f.name) + "=", RenderDefault(f.default, root);
      assert ls[3 * k + 4] == a + r;
      if r == [] {
        assert (a + r)[|a + r| - 1] == a[|a| - 1] == '=';
      } else {
        assert (a + r)[|a + r| - 1] == r[|r| - 1];
      }
    }
  }

  /**
   * The text ends in exactly one newline: the last line is empty and the one
   * before it does not end in a newline, as long as the last field's default
   * does not render with one.
   */
  lemma EnvTextEndsWithOneNewline(fields: seq<FieldInfo>, root: string)
    requires fields == [] || NoTrailingNewline(RenderDefault(fields[|fields| - 1].default, root))
    ensures var t := JoinLines(EnvLines(fields, root)); |t| >= 2 && t[|t| - 1] == '\n' && t[|t| - 2] != '\n'
  {
    LastFieldLine(fields, root);
    JoinEndsWithOneNewline(EnvLines(fields, root));
  }

  // ---------------------------------------------------------------------------
  // The file generated for the current settings class
  // ---------------------------------------------------------------------------

  /** The settings class gives 45 lines: the header and three for each of its 14 fields. */
  lemma WebEnvLineCount(root: string)
    ensures |EnvLines(Fields(root), root)| == 45
  {
    EnvLinesShape(Fields(root), root);
  }

  /** The file for the settings class ends in exactly one newline, whatever the project root. */
  lemma WebEnvEndsWithOneNewline(root: string)
    ensures var t := JoinLines(EnvLines(Fields(root), root)); |t| >= 2 && t[|t| - 1] == '\n' && t[|t| - 2] != '\n'
  {
    var fs, url := Fields(root), DefaultDatabaseUrl(root);
    assert fs[13].default == StrValue(url);
    assert url[|url| - 1] == 'b';
    EnvTextEndsWithOneNewline(fs, root);
  }

  /*
   * The three lemmas below only evaluate the literal text of a line. They are
   * kept apart from the line lemmas that use them so that the string literals
   * are evaluated in a small proof context; inline, those proofs become too costly.
   */
  lemma CsrfSecretKeyText()
    ensures "# " + Upper("csrf_secret_key") + "=" == "# CSRF_SECRET_KEY="
  {
    assert Upper("csrf_secret_key") == "CSRF_SECRET_KEY";
    assert "# " + "CSRF_SECRET_KEY" + "=" == "# CSRF_SECRET_KEY=";
  }

  lemma ServersDirText()
    ensures "# " + Upper("servers_dir") + "=" + ("." + "/servers") == "# SERVERS_DIR=./servers"
  {
    assert Upper("servers_dir") == "SERVERS_DIR";
    assert "# " + "SERVERS_DIR" + "=" + ("." + "/servers") == "# SERVERS_DIR=./servers";
  }

  lemma DatabaseUrlText()
    ensures "# " + Upper("database_url") + "=" == "# DATABASE_URL="
  {
    assert Upper("database_url") == "DATABASE_URL";
    assert "# " + "DATABASE_URL" + "=" == "# DATABASE_URL=";
  }

  /** Line 16 of fourteen fields whose fifth is a CSRF key without default. */
  lemma CsrfSecretKeyLine(fs: seq<FieldInfo>, root: string)
    requires |fs| == 14 && fs[4].name == "csrf_secret_key" && fs[4].default == NoneValue
    ensures |EnvLines(fs, root)| == 45
    ensures EnvLines(fs, root)[16] == "# CSRF_SECRET_KEY="
  {
    EnvLinesAt(fs, root, 4);
    CsrfSecretKeyText();
    var t := "# CSRF_SECRET_KEY=";
    assert t + "" == t;
  }

  /** Line 40 of fourteen fields whose thirteenth is the servers directory under the root. */
  lemma ServersDirLine(fs: seq<FieldInfo>, root: string)
    requires root != [] && !Contains("/servers", root)
    requires |fs| == 14 && fs[12].name == "servers_dir" && fs[12].default == PathValue(root + "/servers")
    ensures |EnvLines(fs, root)| == 45
    ensures EnvLines(fs, root)[40] == "# SERVERS_DIR=./servers"
  {
    EnvLinesAt(fs, root, 12);
    RenderPathUnderRoot(root, "/servers");
    ServersDirText();
  }

  /** Line 43 of fourteen fields whose last is the database URL with string default `url`. */
  lemma DatabaseUrlLine(fs: seq<FieldInfo>, root: string, url: string)
    requires |fs| == 14 && fs[13].name == "database_url" && fs[13].default == StrValue(url)
    ensures |EnvLines(fs, root)| == 45
    ensures EnvLines(fs, root)[43] == "# DATABASE_URL=" + url
  {
    EnvLinesAt(fs, root, 13);
    DatabaseUrlText();
  }

  /** The CSRF key, whose default is None, is shown with nothing after `=`. */
  lemma WebEnvCsrfLine(root: string)
    ensures |EnvLines(Fields(root), root)| == 45
    ensures EnvLines(Fields(root), root)[16] == "# CSRF_SECRET_KEY="
  {
    var fs := Fields(root);
    assert fs[4].name == "csrf_secret_key" && fs[4].default == NoneValue;
    CsrfSecretKeyLine(fs, root);
  }

  /** The servers directory, a Path, is shown relative to `.`. */
  lemma WebEnvServersDirLine(root: string)
    requires root != [] && root[|root| - 1] != '/' && !Contains("/servers", root)
    ensures |EnvLines(Fields(root), root)| == 45
    ensures EnvLines(Fields(root), root)[40] == "# SERVERS_DIR=./servers"
  {
    var fs := Fields(root);
    assert DefaultServersDir(root) == root + "/servers";
    assert fs[12].name == "servers_dir" && fs[12].default == PathValue(root + "/servers");
    ServersDirLine(fs, root);
  }

  /**
   * The database URL, a plain string and not a Path, keeps the absolute project
   * root: the line shows exactly the URL an instance built from nothing holds.
   */
  lemma WebEnvDatabaseUrlLine(root: string)
    ensures |EnvLines(Fields(root), root)| == 45
    ensures EnvLines(Fields(root), root)[43] == "# DATABASE_URL=" + Load(NoOverrides, root).databaseUrl
  {
    var fs := Fields(root);
    assert fs[13].name == "database_url" && fs[13].default == StrValue(DefaultDatabaseUrl(root));
    DatabaseUrlLine(fs, root, DefaultDatabaseUrl(root));
  }
}

=== FILE: strings.dfy ===
/**
 * The handful of Python string operations the scripts rely on: `str.upper`,
 * `str.lower`, `str.strip`, `str.replace`, `"\n".join` (with its inverse,
 * `str.split("\n")`) and `str` of an integer. Case mapping and whitespace
 * are those of ASCII.
 */
module Strings {

  // ---------------------------------------------------------------------------
  // Case mapping (str.upper / str.lower)
  // ---------------------------------------------------------------------------

  predicate IsLowerLetter(c: char) { 'a' <= c <= 'z' }

  predicate IsUpperLetter(c: char) { 'A' <= c <= 'Z' }

  function UpperChar(c: char): char {
    if IsLowerLetter(c) then (c as int - 32) as char else c
  }

  function LowerChar(c: char): char {
    if IsUpperLetter(c) then (c as int + 32) as char else c
  }

  /** No lower-case letter anywhere in `s`. */
  predicate IsUpperCase(s: string) {
    forall i :: 0 <= i < |s| ==> !IsLowerLetter(s[i])
  }

  /** No upper-case letter anywhere in `s`. */
  predicate IsLowerCase(s: string) {
    forall i :: 0 <= i < |s| ==> !IsUpperLetter(s[i])
  }

  /** `a` and `b` spell the same text when case is ignored. */
  predicate SameIgnoringCase(a: string, b: string) {
    |a| == |b| && forall i :: 0 <= i < |a| ==> LowerChar(a[i]) == LowerChar(b[i])
  }

  /** `str.upper()`: every letter upper-cased, nothing else touched. */
  function Upper(s: string): (r: string)
    ensures IsUpperCase(r)
    ensures SameIgnoringCase(r, s)
    ensures forall i :: 0 <= i < |s| && !IsLowerLetter(s[i]) ==> r[i] == s[i]
  {
    seq(|s|, i requires 0 <= i < |s| => UpperChar(s[i]))
  }

  /** `str.lower()`: every letter lower-cased, nothing else touched. */
  function Lower(s: string): (r: string)
    ensures IsLowerCase(r)
    ensures SameIgnoringCase(r, s)
    ensures forall i :: 0 <= i < |s| && !IsUpperLetter(s[i]) ==> r[i] == s[i]
  {
    seq(|s|, i requires 0 <= i < |s| => LowerChar(s[i]))
  }

  /** The three facts Upper promises determine its result: Upper is the only such function. */
  lemma UpperUnique(s: string, r: string)
    requires IsUpperCase(r) && SameIgnoringCase(r, s)
    requires forall i :: 0 <= i < |s| && !IsLowerLetter(s[i]) ==> r[i] == s[i]
    ensures r == Upper(s)
  {
    var u := Upper(s);
    forall i | 0 <= i < |s| ensures r[i] == u[i] {
      if IsLowerLetter(s[i]) {
        assert LowerChar(r[i]) == s[i];
        assert IsUpperLetter(r[i]);
      }
    }
  }

  /** Upper-casing a text without lower-case letters changes nothing. */
  lemma UpperOfUpperCase(s: string)
    requires IsUpperCase(s)
    ensures Upper(s) == s
  {
    assert forall i :: 0 <= i < |s| ==> Upper(s)[i] == s[i];
  }

  /** Upper-casing twice is upper-casing once. */
  lemma UpperIdempotent(s: string)
    ensures Upper(Upper(s)) == Upper(s)
  {
    var u := Upper(s);
    assert forall i :: 0 <= i < |u| ==> !IsLowerLetter(u[i]);
    assert forall i :: 0 <= i < |u| ==> Upper(u)[i] == u[i];
  }

  // ---------------------------------------------------------------------------
  // Whitespace stripping (str.strip)
  // ---------------------------------------------------------------------------

  /** The ASCII characters for which Python's `str.isspace` holds: space, tab to carriage return, 0x1C to 0x1F. */
  predicate IsSpace(c: char) {
    c == ' ' || (9 <= c as int <= 13) || (28 <= c as int <= 31)
  }

  predicate AllSpace(s: string) {
    forall i :: 0 <= i < |s| ==> IsSpace(s[i])
  }

  /** Drops the leading whitespace: the result is the suffix after a run of spaces. */
  function TrimStart(s: string): (r: string)
    ensures |r| <= |s| && r == s[|s| - |r|..]
    ensures AllSpace(s[..|s| - |r|])
    ensures r == [] || !IsSpace(r[0])
  {
    if s != [] && IsSpace(s[0]) then
      var r := TrimStart(s[1..]);
      assert s[..|s| - |r|] == [s[0]] + s[1..][..|s[1..]| - |r|];
      r
    else
      s
  }

  /** Drops the trailing whitespace: the result is the prefix before a run of spaces. */
  function TrimEnd(s: string): (r: string)
    ensures |r| <= |s| && r == s[..|r|]
    ensures AllSpace(s[|r|..])
    ensures r == [] || !IsSpace(r[|r| - 1])
  {
    if s != [] && IsSpace(s[|s| - 1]) then
      var r := TrimEnd(s[..|s| - 1]);
      assert s[|r|..] == s[..|s| - 1][|r|..] + [s[|s| - 1]];
      r
    else
      s
  }

  /** `str.strip()`: the slice of `s` between its leading and trailing whitespace. */
  function Strip(s: string): (r: string)
    ensures exists i, j :: 0 <= i <= j <= |s| && r == s[i..j] && AllSpace(s[..i]) && AllSpace(s[j..])
    ensures r == [] || (!IsSpace(r[0]) && !IsSpace(r[|r| - 1]))
  {
    var t := TrimStart(s);
    var r := TrimEnd(t);
    var i := |s| - |t|;
    assert r == s[i..i + |r|];
    assert s[i + |r|..] == t[|r|..];
    r
  }

  // ---------------------------------------------------------------------------
  // Substring replacement (str.replace)
  // ---------------------------------------------------------------------------

  /** `pat` occurs in `s` starting at index `i`. */
  predicate OccursAt(s: string, pat: string, i: int) {
    0 <= i && i + |pat| <= |s| && s[i..i + |pat|] == pat
  }

  predicate Contains(s: string, pat: string) {
    exists i :: 0 <= i <= |s| && OccursAt(s, pat, i)
  }

  /**
   * `s.replace(pat, rep)`: scanning left to right, every non-overlapping
   * occurrence of `pat` becomes `rep`. As in Python, an empty `pat` matches
   * before every character and at the end.
   */
  function ReplaceAll(s: string, pat: string, rep: string): (r: string)
    decreases |s|, |s| + 1 - |pat|
    ensures forall j :: 0 <= j < |r| ==> r[j] in s || r[j] in rep
    ensures pat == rep ==> r == s
    ensures pat == [] ==> |r| == |s| + |rep| * (|s| + 1)
  {
    if pat == [] then
      if s == [] then rep else rep + [s[0]] + ReplaceAll(s[1..], pat, rep)
    else if |pat| <= |s| && s[..|pat|] == pat then
      rep + ReplaceAll(s[|pat|..], pat, rep)
    else if s == [] then
      []
    else
      [s[0]] + ReplaceAll(s[1..], pat, rep)
  }

  /** A text that lacks the pattern's first character does not contain the pattern. */
  lemma NotContainsFirstChar(s: string, pat: string)
    requires pat != [] && pat[0] !in s
    ensures !Contains(s, pat)
  {
  }

  /** A text that does not contain the pattern comes back unchanged. */
  lemma {:induction false} ReplaceAllAbsent(s: string, pat: string, rep: string)
    ensures pat != [] && !Contains(s, pat) ==> ReplaceAll(s, pat, rep) == s
  {
    if s != [] && pat != [] && !Contains(s, pat) {
      assert !OccursAt(s, pat, 0);
      forall i | OccursAt(s[1..], pat, i) ensures false {
        assert s[1..][i..i + |pat|] == s[i + 1..i + 1 + |pat|];
        assert OccursAt(s, pat, i + 1);
      }
      ReplaceAllAbsent(s[1..], pat, rep);
    }
  }

  /** A leading occurrence of the pattern becomes the replacement. */
  lemma ReplaceAllLeading(pat: string, t: string, rep: string)
    requires pat != []
    ensures ReplaceAll(pat + t, pat, rep) == rep + ReplaceAll(t, pat, rep)
  {
    assert (pat + t)[..|pat|] == pat;
    assert (pat + t)[|pat|..] == t;
  }

  /** A character where the pattern does not start is copied, and the scan moves on. */
  lemma ReplaceAllSkip(c: char, t: string, pat: string, rep: string)
    requires pat != [] && !OccursAt([c] + t, pat, 0)
    ensures ReplaceAll([c] + t, pat, rep) == [c] + ReplaceAll(t, pat, rep)
  {
    assert ([c] + t)[1..] == t;
  }

  /** No occurrence in the first `n + 1` positions of `[c] + t` means none in the first `n` of `t`. */
  lemma NoOccurrenceShift(c: char, t: string, pat: string, n: nat)
    requires forall i :: 0 <= i < n + 1 ==> !OccursAt([c] + t, pat, i)
    ensures forall i :: 0 <= i < n ==> !OccursAt(t, pat, i)
  {
    forall i | 0 <= i < n ensures !OccursAt(t, pat, i) {
      assert !OccursAt([c] + t, pat, i + 1);
      if i + |pat| <= |t| {
        assert t[i..i + |pat|] == ([c] + t)[i + 1..i + 1 + |pat|];
      }
    }
  }

  /**
   * The scan replaces the leftmost occurrence first: when `pat` does not start
   * anywhere inside `a`, the text `a + pat + b` becomes `a`, the replacement,
   * and the replaced rest `b`. With `ReplaceAllAbsent` this fixes the result for
   * every non-empty pattern.
   */
  lemma {:induction false} ReplaceAllFirst(a: string, pat: string, b: string, rep: string)
    requires pat != []
    requires forall i :: 0 <= i < |a| ==> !OccursAt(a + pat + b, pat, i)
    ensures ReplaceAll(a + pat + b, pat, rep) == a + rep + ReplaceAll(b, pat, rep)
    decreases |a|
  {
    if a == [] {
      assert a + pat + b == pat + b;
      ReplaceAllLeading(pat, b, rep);
    } else {
      var c, a' := a[0], a[1..];
      var r := ReplaceAll(b, pat, rep);
      var x, y := a' + pat + b, a' + rep + r;
      assert a == [c] + a';
      ConsAssoc(c, a', pat, b);
      ConsAssoc(c, a', rep, r);
      assert a + pat + b == [c] + x;
      assert a + rep + r == [c] + y;
      NoOccurrenceShift(c, x, pat, |a'|);
      ReplaceAllFirst(a', pat, b, rep);
      ReplaceAllSkip(c, x, pat, rep);
      assert ReplaceAll([c] + x, pat, rep) == [c] + y;
    }
  }

  lemma ConsAssoc(c: char, a: string, p: string, b: string)
    ensures [c] + a + p + b == [c] + (a + p + b)
  {
  }

  // ---------------------------------------------------------------------------
  // Joining and splitting lines ("\n".join / str.split("\n"))
  // ---------------------------------------------------------------------------

  /** `"\n".join(lines)`: the first line, then a newline before each further line. */
  function JoinLines(lines: seq<string>): (t: string)
    ensures |lines| >= 1 ==> |lines[0]| <= |t| && t[..|lines[0]|] == lines[0]
    ensures |lines| >= 2 ==> |lines[0]| < |t| && t[|lines[0]|] == '\n'
    ensures |t| + 1 >= |lines|
  {
    if |lines| == 0 then ""
    else if |lines| == 1 then lines[0]
    else lines[0] + "\n" + JoinLines(lines[1..])
  }

  /** Appending a line adds a newline and the line. */
  lemma {:induction false} JoinLinesSnoc(lines: seq<string>, l: string)
    requires |lines| >= 1
    ensures JoinLines(lines + [l]) == JoinLines(lines) + "\n" + l
  {
    var all := lines + [l];
    assert all[0] == lines[0];
    if |lines| == 1 {
      assert all[1..] == [l];
    } else {
      var rest := lines[1..];
      assert all[1..] == rest + [l];
      JoinLinesSnoc(rest, l);
      calc {
        JoinLines(all);
        lines[0] + "\n" + JoinLines(rest + [l]);
        lines[0] + "\n" + (JoinLines(rest) + "\n" + l);
        (lines[0] + "\n" + JoinLines(rest)) + "\n" + l;
      }
    }
  }

  /** The joined text ends with the last line. */
  lemma {:induction false} JoinLinesEndsWith(lines: seq<string>)
    requires |lines| >= 1
    ensures var t, l := JoinLines(lines), lines[|lines| - 1]; |l| <= |t| && t[|t| - |l|..] == l
  {
    if |lines| > 1 {
      JoinLinesEndsWith(lines[1..]);
    }
  }

  /** The index of the first `c` in `s`. */
  function IndexOf(s: string, c: char): (i: nat)
    requires c in s
    ensures i < |s| && s[i] == c && c !in s[..i]
  {
    if s[0] == c then 0
    else
      var j := IndexOf(s[1..], c);
      assert s[..j + 1] == [s[0]] + s[1..][..j];
      j + 1
  }

  /** `s.split("\n")`: the pieces between newlines; never empty. */
  function SplitLines(s: string): (lines: seq<string>)
    ensures |lines| >= 1
    decreases |s|
  {
    if '\n' !in s then [s]
    else
      var i := IndexOf(s, '\n');
      [s[..i]] + SplitLines(s[i + 1..])
  }

  predicate NoNewlines(lines: seq<string>) {
    forall k :: 0 <= k < |lines| ==> '\n' !in lines[k]
  }

  lemma NoNewlinesConcat(a: seq<string>, b: seq<string>)
    requires NoNewlines(a) && NoNewlines(b)
    ensures NoNewlines(a + b)
  {
    forall k | 0 <= k < |a + b| ensures '\n' !in (a + b)[k] {
      if k >= |a| {
        assert (a + b)[k] == b[k - |a|];
      }
    }
  }

  /** Splitting joined lines gives the lines back when none of them holds a newline. */
  lemma {:induction false} SplitJoin(lines: seq<string>)
    requires |lines| >= 1 && NoNewlines(lines)
    ensures SplitLines(JoinLines(lines)) == lines
  {
    if |lines| > 1 {
      var l0, rest := lines[0], lines[1..];
      var j := JoinLines(rest);
      var s := l0 + "\n" + j;
      assert JoinLines(lines) == s;
      assert '\n' !in l0;
      assert s[..|l0|] == l0 && s[|l0|] == '\n' && s[|l0| + 1..] == j;
      var i := IndexOf(s, '\n');
      assert i == |l0|;
      assert SplitLines(s) == [l0] + SplitLines(j);
      assert NoNewlines(rest) by {
        forall k | 0 <= k < |rest| ensures '\n' !in rest[k] {
          assert rest[k] == lines[k + 1];
        }
      }
      SplitJoin(rest);
      assert [l0] + rest == lines;
    }
  }

  /** Joining the pieces of a split gives the text back. */
  lemma {:induction false} JoinSplit(s: string)
    ensures JoinLines(SplitLines(s)) == s
    decreases |s|
  {
    if '\n' in s {
      var i := IndexOf(s, '\n');
      var rest := SplitLines(s[i + 1..]);
      var pieces := [s[..i]] + rest;
      assert SplitLines(s) == pieces;
      assert pieces[0] == s[..i] && pieces[1..] == rest && |pieces| >= 2;
      JoinSplit(s[i + 1..]);
      assert JoinLines(pieces) == s[..i] + "\n" + s[i + 1..];
      assert s == s[..i] + "\n" + s[i + 1..];
    }
  }

  // ---------------------------------------------------------------------------
  // Integers as decimal text (str of an int)
  // ---------------------------------------------------------------------------

  predicate IsDigit(c: char) { '0' <= c <= '9' }

  /** A non-empty run of decimal digits. */
  predicate IsDecimal(s: string) {
    |s| >= 1 && forall i :: 0 <= i < |s| ==> IsDigit(s[i])
  }

  function DigitChar(d: nat): (c: char)
    requires d < 10
    ensures IsDigit(c)
  {
    ('0' as int + d) as char
  }

  function DigitValue(c: char): nat
    requires IsDigit(c)
  {
    c as int - '0' as int
  }

  /** The decimal digits of `n`, most significant first, without leading zeros. */
  function NatToString(n: nat): (s: string)
    ensures |s| >= 1
    ensures forall i :: 0 <= i < |s| ==> IsDigit(s[i])
    ensures |s| > 1 ==> s[0] != '0'
  {
    if n < 10 then [DigitChar(n)] else NatToString(n / 10) + [DigitChar(n % 10)]
  }

  /** The number a string of decimal digits denotes. */
  function DigitsValue(s: string): nat
    requires forall i :: 0 <= i < |s| ==> IsDigit(s[i])
  {
    if s == [] then 0 else 10 * DigitsValue(s[..|s| - 1]) + DigitValue(s[|s| - 1])
  }

  /** Reading back the digits of `n` gives `n`. */
  lemma {:induction false} NatToStringRoundTrip(n: nat)
    ensures DigitsValue(NatToString(n)) == n
  {
    if n >= 10 {
      var s := NatToString(n);
      assert s[..|s| - 1] == NatToString(n / 10);
      NatToStringRoundTrip(n / 10);
    }
  }

  /** `str(i)` for a Python int: a minus sign before the digits of a negative number. */
  function IntToString(i: int): (s: string)
    ensures i >= 0 ==> IsDecimal(s) && DigitsValue(s) == i
    ensures i < 0 ==> |s| >= 2 && s[0] == '-' && IsDecimal(s[1..]) && DigitsValue(s[1..]) == -i
    ensures var d := if i < 0 then s[1..] else s; |d| > 1 ==> d[0] != '0'
  {
    if i < 0 then
      NatToStringRoundTrip(-i);
      assert ("-" + NatToString(-i))[1..] == NatToString(-i);
      "-" + NatToString(-i)
    else
      NatToStringRoundTrip(i);
      NatToString(i)
  }
}

=== FILE: validators.dfy ===
/**
 * The two field validators of the settings class. `web/settings.py` and
 * `app/config.py` carry identical copies; both settings modules use these.
 */
module Validators {
  import opened Wrappers
  import opened Strings

  /** `validate_log_level`: the level is stored upper-cased. */
  function ValidateLogLevel(v: string): (r: string)
    ensures IsUpperCase(r)
    ensures SameIgnoringCase(r, v)
  {
    Upper(v)
  }

  /** A level that is already upper-case is kept as it is. */
  lemma ValidateLogLevelKeepsUpper(v: string)
    requires IsUpperCase(v)
    ensures ValidateLogLevel(v) == v
  {
    UpperOfUpperCase(v);
  }

  /** Validating a validated level changes nothing. */
  lemma ValidateLogLevelIdempotent(v: string)
    ensures ValidateLogLevel(ValidateLogLevel(v)) == ValidateLogLevel(v)
  {
    UpperIdempotent(v);
  }

  /**
   * `default_csrf_key`, run after `csrf_secret_key` has been parsed. `v` is the
   * parsed value (None when unset) and `secretKey` the `secret_key` entry of the
   * already-validated fields, None when that entry is absent.
   */
  function DefaultCsrfKey(v: Option<string>, secretKey: Option<string>): (r: string)
    ensures v.Some? ==> r == v.value
    ensures v.None? && secretKey.Some? ==> r == secretKey.value
    ensures v.None? && secretKey.None? ==> r == ""
  {
    match v
    case Some(key) => key
    case None => secretKey.GetOr("")
  }
}

=== FILE: web_settings.dfy ===
/**
 * The settings class of `web/settings.py`: its fields with their documented
 * defaults, the field metadata the `.env.example` generator walks, and the
 * resolution of a settings instance from supplied values, defaults and the
 * two validators.
 *
 * `root` stands for `str(ROOT_PATH)`, the absolute project directory.
 */
module WebSettings {
  import opened Wrappers
  import opened Strings
  import V = Validators

  // ---------------------------------------------------------------------------
  // Paths
  // ---------------------------------------------------------------------------

  /** `str(Path(root) / name)` for an absolute `root` and a one-component `name`. */
  function PathJoin(root: string, name: string): string {
    if |root| > 0 && root[|root| - 1] == '/' then root + name else root + "/" + name
  }

  // ---------------------------------------------------------------------------
  // Documented defaults
  // ---------------------------------------------------------------------------

  const DefaultSecretKey: string := "your-secret-key-change-in-production"
  const DefaultAlgorithm: string := "HS256"
  const DefaultExpireMinutes: int := 1440
  const DefaultSecureCookies: bool := false
  const DefaultHost: string := "0.0.0.0"
  const DefaultPort: int := 8000
  const DefaultReload: bool := true
  const DefaultServeStaticFiles: bool := true
  const DefaultAppName: string := "Ad Hoc Web UI"
  const DefaultLogLevel: string := "INFO"
  const DefaultLogFormat: string := "default"

  function DefaultServersDir(root: string): string {
    PathJoin(root, "servers")
  }

  function DefaultDatabaseUrl(root: string): string {
    "sqlite:///" + PathJoin(root, "adhoc_users.db")
  }

  // ---------------------------------------------------------------------------
  // The settings record and its resolution
  // ---------------------------------------------------------------------------

  /** A validated settings instance. `csrfSecretKey` is always a string once validated. */
  datatype Settings = Settings(
    secretKey: string,
    algorithm: string,
    accessTokenExpireMinutes: int,
    secureCookies: bool,
    csrfSecretKey: string,
    host: string,
    port: int,
    reload: bool,
    serveStaticFiles: bool,
    appName: string,
    logLevel: string,
    logFormat: string,
    serversDir: string,
    databaseUrl: string)

  /**
   * The values found in the environment or the `.env` file, already parsed
   * into the field's type; None where nothing was supplied.
   */
  datatype Overrides = Overrides(
    secretKey: Option<string>,
    algorithm: Option<string>,
    accessTokenExpireMinutes: Option<int>,
    secureCookies: Option<bool>,
    csrfSecretKey: Option<string>,
    host: Option<string>,
    port: Option<int>,
    reload: Option<bool>,
    serveStaticFiles: Option<bool>,
    appName: Option<string>,
    logLevel: Option<string>,
    logFormat: Option<string>,
    serversDir: Option<string>,
    databaseUrl: Option<string>)

  const NoOverrides: Overrides :=
    Overrides(None, None, None, None, None, None, None, None, None, None, None, None, None, None)

  /**
   * `Settings()`: each field takes the supplied value or its default, in
   * declaration order, and the validators run on the result (defaults
   * included). `secret_key` is declared before `csrf_secret_key`, so it is
   * always among the already-validated fields when the CSRF validator runs.
   */
  function Load(ov: Overrides, root: string): (s: Settings)
    ensures IsUpperCase(s.logLevel)
    ensures SameIgnoringCase(s.logLevel, ov.logLevel.GetOr(DefaultLogLevel))
    ensures ov.csrfSecretKey.None? ==> s.csrfSecretKey == s.secretKey
    ensures ov.csrfSecretKey.Some? ==> s.csrfSecretKey == ov.csrfSecretKey.value
    ensures s.secretKey == ov.secretKey.GetOr(DefaultSecretKey)
    ensures s.algorithm == ov.algorithm.GetOr(DefaultAlgorithm)
    ensures s.accessTokenExpireMinutes == ov.accessTokenExpireMinutes.GetOr(DefaultExpireMinutes)
    ensures s.secureCookies == ov.secureCookies.GetOr(DefaultSecureCookies)
    ensures s.host == ov.host.GetOr(DefaultHost)
    ensures s.port == ov.port.GetOr(DefaultPort)
    ensures s.reload == ov.reload.GetOr(DefaultReload)
    ensures s.serveStaticFiles == ov.serveStaticFiles.GetOr(DefaultServeStaticFiles)
    ensures s.appName == ov.appName.GetOr(DefaultAppName)
    ensures s.logFormat == ov.logFormat.GetOr(DefaultLogFormat)
    ensures s.serversDir == ov.serversDir.GetOr(DefaultServersDir(root))
    ensures s.databaseUrl == ov.databaseUrl.GetOr(DefaultDatabaseUrl(root))
  {
    var secretKey := ov.secretKey.GetOr(DefaultSecretKey);
    Settings(
      secretKey,
      ov.algorithm.GetOr(DefaultAlgorithm),
      ov.accessTokenExpireMinutes.GetOr(DefaultExpireMinutes),
      ov.secureCookies.GetOr(DefaultSecureCookies),
      V.DefaultCsrfKey(ov.csrfSecretKey, Some(secretKey)),
      ov.host.GetOr(DefaultHost),
      ov.port.GetOr(DefaultPort),
      ov.reload.GetOr(DefaultReload),
      ov.serveStaticFiles.GetOr(DefaultServeStaticFiles),
      ov.appName.GetOr(DefaultAppName),
      V.ValidateLogLevel(ov.logLevel.GetOr(DefaultLogLevel)),
      ov.logFormat.GetOr(DefaultLogFormat),
      ov.serversDir.GetOr(DefaultServersDir(root)),
      ov.databaseUrl.GetOr(DefaultDatabaseUrl(root)))
  }

  /** The loaded defaults in terms of the named constants. */
  lemma LoadNothing(root: string)
    ensures Load(NoOverrides, root) == Settings(
      DefaultSecretKey, DefaultAlgorithm, DefaultExpireMinutes, DefaultSecureCookies,
      DefaultSecretKey, DefaultHost, DefaultPort, DefaultReload, DefaultServeStaticFiles,
      DefaultAppName, DefaultLogLevel, DefaultLogFormat, DefaultServersDir(root), DefaultDatabaseUrl(root))
  {
    V.ValidateLogLevelKeepsUpper(DefaultLogLevel);
  }

  /** Below a root that does not end in `/`, the two path defaults are the root followed by their names. */
  lemma DefaultPathsUnderRoot(root: string)
    requires |root| > 0 && root[|root| - 1] != '/'
    ensures DefaultServersDir(root) == root + "/servers"
    ensures DefaultDatabaseUrl(root) == "sqlite:///" + root + "/adhoc_users.db"
  {
    var scheme, db := "sqlite:///", "adhoc_users.db";
    assert PathJoin(root, db) == (root + "/") + db == root + ("/" + db);
    assert "/" + db == "/adhoc_users.db";
    assert scheme + (root + "/adhoc_users.db") == (scheme + root) + "/adhoc_users.db";
    assert PathJoin(root, "servers") == (root + "/") + "servers" == root + ("/" + "servers");
    assert "/" + "servers" == "/servers";
  }

  /** With nothing supplied, the instance holds the documented defaults. */
  lemma LoadDefaults(root: string)
    requires |root| > 0 && root[|root| - 1] != '/'
    ensures Load(NoOverrides, root) == Settings(
      "your-secret-key-change-in-production", "HS256", 1440, false,
      "your-secret-key-change-in-production",
      "0.0.0.0", 8000, true, true,
      "Ad Hoc Web UI", "INFO", "default",
      root + "/servers", "sqlite:///" + root + "/adhoc_users.db")
  {
    LoadNothing(root);
    DefaultPathsUnderRoot(root);
  }

  /** The log level is read case-insensitively: supplying it lower-cased loads the same instance. */
  lemma LoadLogLevelCaseInsensitive(ov: Overrides, ov': Overrides, root: string)
    requires ov' == ov.(logLevel := Some(Lower(ov.logLevel.GetOr(DefaultLogLevel))))
    ensures Load(ov', root) == Load(ov, root)
  {
    var a, b := ov.logLevel.GetOr(DefaultLogLevel), ov'.logLevel.GetOr(DefaultLogLevel);
    assert SameIgnoringCase(Upper(a), b);
    UpperUnique(b, Upper(a));
  }

  // ---------------------------------------------------------------------------
  // Field metadata (Settings.model_fields)
  // ---------------------------------------------------------------------------

  /** A field's default as pydantic records it: None, a string, an int, a bool or a Path. */
  datatype DefaultValue = NoneValue | StrValue(s: string) | IntValue(i: int) | BoolValue(b: bool) | PathValue(p: string)

  datatype FieldInfo = FieldInfo(name: string, description: Option<string>, default: DefaultValue)

  // The `description` of each field.
  const SecretKeyDoc: string := "Secret key for JWT token signing"
  const AlgorithmDoc: string := "JWT algorithm"
  const ExpireMinutesDoc: string := "Token expiration in minutes (24 hours)"
  const SecureCookiesDoc: string := "Enable secure flag on cookies (HTTPS only)"
  const CsrfSecretKeyDoc: string := "CSRF secret key (defaults to secret_key)"
  const HostDoc: string := "Server host"
  const PortDoc: string := "Server port"
  const ReloadDoc: string := "Enable auto-reload"
  const ServeStaticFilesDoc: string := "Serve static files"
  const AppNameDoc: string := "Application name"
  const LogLevelDoc: string := "Logging level"
  const LogFormatDoc: string := "Logging format (json or default)"
  const ServersDirDoc: string := "Server configs path"
  const DatabaseUrlDoc: string := "Database URL"

  /** The declared fields in declaration order, as `Settings.model_fields` lists them. */
  function Fields(root: string): (fs: seq<FieldInfo>)
    ensures |fs| == 14
  {
    [ FieldInfo("secret_key", Some(SecretKeyDoc), StrValue(DefaultSecretKey)),
      FieldInfo("algorithm", Some(AlgorithmDoc), StrValue(DefaultAlgorithm)),
      FieldInfo("access_token_expire_minutes", Some(ExpireMinutesDoc), IntValue(DefaultExpireMinutes)),
      FieldInfo("secure_cookies", Some(SecureCookiesDoc), BoolValue(DefaultSecureCookies)),
      FieldInfo("csrf_secret_key", Some(CsrfSecretKeyDoc), NoneValue),
      FieldInfo("host", Some(HostDoc), StrValue(DefaultHost)),
      FieldInfo("port", Some(PortDoc), IntValue(DefaultPort)),
      FieldInfo("reload", Some(ReloadDoc), BoolValue(DefaultReload)),
      FieldInfo("serve_static_files", Some(ServeStaticFilesDoc), BoolValue(DefaultServeStaticFiles)),
      FieldInfo("app_name", Some(AppNameDoc), StrValue(DefaultAppName)),
      FieldInfo("log_level", Some(LogLevelDoc), StrValue(DefaultLogLevel)),
      FieldInfo("log_format", Some(LogFormatDoc), StrValue(DefaultLogFormat)),
      FieldInfo("servers_dir", Some(ServersDirDoc), PathValue(DefaultServersDir(root))),
      FieldInfo("database_url", Some(DatabaseUrlDoc), StrValue(DefaultDatabaseUrl(root))) ]
  }

  /** The values a loaded instance holds, field by field in declaration order, in the metadata's terms. */
  function Values(s: Settings): (vs: seq<DefaultValue>)
    ensures |vs| == 14
  {
    [ StrValue(s.secretKey), StrValue(s.algorithm), IntValue(s.accessTokenExpireMinutes),
      BoolValue(s.secureCookies), StrValue(s.csrfSecretKey), StrValue(s.host), IntValue(s.port),
      BoolValue(s.reload), BoolValue(s.serveStaticFiles), StrValue(s.appName), StrValue(s.logLevel),
      StrValue(s.logFormat), PathValue(s.serversDir), StrValue(s.databaseUrl) ]
  }

  /**
   * The metadata agrees with the loaded defaults: every field's recorded default
   * is what an instance built from nothing holds, except `csrf_secret_key`, whose
   * recorded default is None while the instance holds `secret_key`.
   */
  lemma FieldsMatchLoadedDefaults(root: string)
    ensures forall k :: 0 <= k < 14 && k != 4 ==> Fields(root)[k].default == Values(Load(NoOverrides, root))[k]
    ensures Fields(root)[4].name == "csrf_secret_key" && Fields(root)[4].default == NoneValue
    ensures Values(Load(NoOverrides, root))[4] == StrValue(DefaultSecretKey)
  {
    LoadNothing(root);
  }
}

=== FILE: wrappers.dfy ===
/** Optional values, standing in for Python's `None` and JavaScript's `null`. */
module Wrappers {

  datatype Option<+T> = None | Some(value: T) {

    /** The value in Some, or `default` when None. */
    function GetOr(default: T): T {
      match this
      case Some(v) => v
      case None => default
    }
  }

  /** A success value or the error that the source raises or throws. */
  datatype Result<+R, +E> = Success(value: R) | Failure(error: E)
}
